=== FILE: README.md ===
# Video annotation: transfer engine and list state

This project models two parts of a video annotation web application in Dafny.

The first part is the transfer engine of `utils/aws/s3.utils.ts`:
- `uploadToS3` routes a file by size. A file of at most `CHUNK_SIZE` (5 MiB) goes up as one `PutObject`. A larger one goes through a multipart upload: create, then one `UploadPart` per 5 MiB chunk, all in parallel, then completion with the part list sorted by part number.
- A failure after the create step rethrows the original error. When the create call returned a truthy upload id, one best-effort abort is sent first; without one, no abort is sent.
- `listVideos` lists the `videos/` prefix, drops the folder marker and names each object after its last key segment.

The second part is the list and selection state of the React components:
- the tag lists of `AnnotationForm`, `VideoPlayer` and `VideoAnnotation`;
- the pending-video list with its current index and selected file, which `VideoUploader` fills, `PendingVideoGrid` shrinks and `VideoAnnotation` advances after a save.

Every store and database call is an input to the model. For the transfer engine, a `Store` value says what each request answers. A run returns the caller-visible result together with the requests sent, so the model can state "completion only if", "exactly one abort" and "the original error" as properties of that request trace. The components are pure functions from the old state to the new state.

Modules, one per file:
- `Common`: `Option`, `Result`, `Outcome`, `File`.
- `Text`: the JavaScript string operations used: `split().pop()`, `startsWith`, `trim()`, and number-to-text rendering.
- `PartPlan`: the part plan.
- `ETag`: entity-tag normalisation.
- `S3Upload`: routing, the single-request path, the multipart path with complete/abort, and the request trace.
- `S3Listing`: `listVideos`.
- `TagList`: the shared tag-list operations.
- `VideoContext`: the shared selection state and its invariants.
- `AnnotationForm`, `VideoPlayer`, `VideoUploader`, `PendingVideoGrid`, `VideoAnnotation`: the component handlers.

## Model

| member | source | states |
|---|---|---|
| Text.AfterLast | components/VideoAnnotation.tsx:55 | `split(sep).pop()`: the result is a suffix of the text that contains no separator; when it is shorter than the text, a separator comes right before it |
| Text.AfterLastIsTail | utils/aws/s3.utils.ts:57 | for every text made of a prefix that is empty or ends in the separator, followed by a separator-free tail, the result is exactly that tail |
| Text.SkipSpace | components/AnnotationForm.tsx:24 | the leading white space of `trim()`: everything before the returned index is white space, and the character at the index is not |
| Text.BackOverSpace | components/AnnotationForm.tsx:24 | the trailing white space of `trim()`: everything from the returned index up to the end is white space, and the character before the index is not |
| Text.Trim | components/AnnotationForm.tsx:24 | the trimmed text is a stretch of the input with only white space before and after it, and it neither starts nor ends with ECMAScript white space or a line terminator |
| Text.TrimCutsOnlySpace | components/AnnotationForm.tsx:24 | every character that `trim()` cuts off, on either side, is white space |
| Text.BlankIffAllSpace | components/AnnotationForm.tsx:24-26 | `trim()` is empty (falsy) exactly when the text is empty or all white space |
| Text.TrimIdempotent | components/VideoPlayer.tsx:18-21 | trimming a trimmed tag changes nothing |
| Text.Decimal | utils/aws/s3.utils.ts:142 | a number renders as a non-empty string of decimal digits with no leading zero: it starts with `0` only when it is the number 0, which is the single digit `0` |
| Text.ParseDecimalOfDecimal | utils/aws/s3.utils.ts:142 | reading the rendered digits back gives the number |
| Text.DecimalInjective | utils/aws/s3.utils.ts:142 | distinct part numbers render as distinct texts |
| PartPlan.PartStart | utils/aws/s3.utils.ts:124 | `start = index * CHUNK_SIZE`: a multiple of the chunk size from which the index divides back out |
| PartPlan.PartEnd | utils/aws/s3.utils.ts:125 | `Math.min(start + CHUNK_SIZE, file.size)`: at most both bounds and equal to one of them |
| PartPlan.PartNumber | utils/aws/s3.utils.ts:134 | `PartNumber: index + 1`: part numbers start at 1 and are the index plus one |
| PartPlan.NumParts | utils/aws/s3.utils.ts:119 | `Math.ceil(size / CHUNK_SIZE)`: the least number of 5 MiB chunks that hold the file |
| PartPlan.PartBounds | utils/aws/s3.utils.ts:123-126 | every planned part is a non-empty range inside the file; all parts but the last are exactly one chunk; the last ends at the file's end and holds at most one chunk |
| PartPlan.PartsContiguous | utils/aws/s3.utils.ts:124-125 | each part ends where the next one starts |
| PartPlan.EveryByteInExactlyOnePart | utils/aws/s3.utils.ts:119-126 | every byte offset lies in the part at `offset / CHUNK_SIZE` and in no other part |
| PartPlan.PartBody | utils/aws/s3.utils.ts:126 | `file.slice(start, end)` is non-empty and at most one chunk long |
| PartPlan.AssembledPrefix | utils/aws/s3.utils.ts:123-126 | the bodies of the first `m` parts, joined, are the first `min(m * CHUNK_SIZE, size)` bytes of the file |
| PartPlan.PartsReassembleFile | utils/aws/s3.utils.ts:119-126 | joining all part bodies in part-number order gives back the file |
| PartPlan.TwoChunksAndAKilobyte | utils/aws/s3.utils.ts:119-125 | a file of 10 MiB plus 1024 bytes is cut into parts of 5 MiB, 5 MiB and 1024 bytes |
| ETag.Quoted | utils/aws/s3.utils.ts:151 | `"${etag}"` is the tag with one quote added on each side |
| ETag.DropLeadingQuote | utils/aws/s3.utils.ts:139 | the `^"` alternative removes one leading quote if there is one, and nothing else |
| ETag.DropTrailingQuote | utils/aws/s3.utils.ts:139 | the `"$` alternative removes one trailing quote if there is one, and nothing else |
| ETag.StripQuotes | utils/aws/s3.utils.ts:139 | a quote at the start and a quote at the end are each removed once when present (the one-character text `"` loses its only quote), and nothing else changes; a tag with neither comes back unchanged |
| ETag.Normalize | utils/aws/s3.utils.ts:139-151 | a usable tag comes from a present raw tag, is at least three characters long, and is the stripped tag in one pair of quotes |
| ETag.NormalizeRejects | utils/aws/s3.utils.ts:139-143 | a part is refused exactly when its tag is missing, empty, `"` or `""` |
| ETag.StripQuotesOfQuoted | utils/aws/s3.utils.ts:139-151 | stripping undoes quoting, for any tag |
| ETag.QuotedAndBareAgree | utils/aws/s3.utils.ts:139-151 | a tag the store sends quoted and the same tag sent bare are handed to completion identically |
| ETag.NormalizeIdempotent | utils/aws/s3.utils.ts:139-151 | normalising a normalised tag changes nothing |
| S3Upload.ObjectKey | utils/aws/s3.utils.ts:83 | the key is `published-videos/` followed by exactly the file name |
| S3Upload.PublicUrl | utils/aws/s3.utils.ts:96 | the URL is `https://{bucket}.s3.{region}.amazonaws.com/` followed by exactly the object key |
| S3Upload.PublicUrlNamesFile | utils/aws/s3.utils.ts:96 | the returned URL ends with the file name, and two file names never share a URL |
| S3Upload.UploadToS3 | utils/aws/s3.utils.ts:72-80 | a file of at most 5 MiB is sent as exactly one `PutObject` of the whole body to `published-videos/{name}`, and succeeds exactly when the store accepts it, failing with the store's error otherwise. A larger one starts with `CreateMultipartUpload` for that key and succeeds exactly when the create, every part and the completion succeed; it fails with the create's error, the reported part's error or the completion's error. Success returns the public URL of the key |
| S3Upload.MultipartHasSeveralParts | utils/aws/s3.utils.ts:74-79 | a file routed to the multipart path has at least two parts |
| S3Upload.UploadSmallFile | utils/aws/s3.utils.ts:82-101 | exactly one request, a `PutObject` to `published-videos/{name}` with the whole body and the file's type; success exactly when the store accepts it, with the public URL; otherwise the store's error unchanged |
| S3Upload.MissingETagError | utils/aws/s3.utils.ts:142 | the message is `Failed to get ETag for part ` followed by exactly the part number's decimal digits, which read back as that number |
| S3Upload.MissingETagErrorNamesPart | utils/aws/s3.utils.ts:142 | the missing-tag errors of two different parts differ |
| S3Upload.PartOutcome | utils/aws/s3.utils.ts:128-152 | a failed part call settles with its own error; a stored part without a usable tag fails with the error naming part `k + 1`; a success is part `k + 1` with the stripped tag in one pair of quotes |
| S3Upload.PartOutcomes | utils/aws/s3.utils.ts:123-157 | the array `Promise.all` settles to: one outcome per planned part, at the part's index |
| S3Upload.PartOutcomeCases | utils/aws/s3.utils.ts:138-152 | a stored part fails with the error naming part `k + 1` exactly when its tag is missing, empty, `"` or `""`; otherwise it yields part number `k + 1` and the re-quoted tag; a failed call fails with its own error |
| S3Upload.FirstRejected | utils/aws/s3.utils.ts:157 | `Promise.all` rejects exactly when some part failed, and reports a failed part that settled no later than any other failed part (the lower index on a tie) |
| S3Upload.PartRequests | utils/aws/s3.utils.ts:123-136 | one `UploadPart` per planned part, in index order, numbered `k + 1`, carrying the part's byte range |
| S3Upload.InsertByPartNumber | utils/aws/s3.utils.ts:161 | inserting into a list sorted by part number keeps it sorted and adds exactly that entry |
| S3Upload.SortByPartNumber | utils/aws/s3.utils.ts:161 | the sorted part list is in ascending part-number order and is a permutation of the input |
| S3Upload.SortKeepsSortedList | utils/aws/s3.utils.ts:161 | sorting a list already in part-number order returns it unchanged |
| S3Upload.CompletedPartsNumbered | utils/aws/s3.utils.ts:149-161 | when every part succeeded, the index-ordered results carry part numbers `1..numParts` in order, and the sort leaves them as they are |
| S3Upload.HasUploadId | utils/aws/s3.utils.ts:179 | `if (uploadId)`: an id is truthy unless it is undefined or the empty string |
| S3Upload.FalsyUploadIdSkipsAbort | utils/aws/s3.utils.ts:112-179 | a create that answers with no id or an empty id still leads to every part, with that id, and to completion when the parts succeed, but never to an abort |
| S3Upload.Unwind | utils/aws/s3.utils.ts:177-192 | the `catch` block rethrows the original error; it appends one abort exactly when the upload id is truthy |
| S3Upload.UploadLargeFile | utils/aws/s3.utils.ts:103-193 | the create goes first. A failed create ends the transfer without an abort. Otherwise exactly these requests go out, in order: the create, every part with its number and range, the completion if every part succeeded, and the abort after any failure if the id is truthy; nothing else is sent. Success holds exactly when every part and the completion succeed. Completion is requested once, and only with every part, in order, for `published-videos/{name}` and the id the create returned. Exactly one abort, for that key and the obtained id, follows any later failure, and none follows when no id came back. The caller sees the create's error, the reported part's error, or the completion's error |
| S3Upload.Multipart | utils/aws/s3.utils.ts:119-192 | the same promises, including the exact request trace, once the create has answered with an id that may be missing; completion and abort carry the key and that id |
| S3Upload.PartsInTrace | utils/aws/s3.utils.ts:123-136 | in the request trace, part `k + 1` with its byte range comes right after the create request |
| S3Upload.Settle | utils/aws/s3.utils.ts:157-192 | after the parts are sent: a rejected part aborts and surfaces its own error; otherwise the sorted list goes to completion; completion and abort carry the key and the id; the trace is exactly the requests already sent, then the completion if any, then the abort if any |
| S3Upload.Complete | utils/aws/s3.utils.ts:161-192 | the trace gains exactly the completion with the key, the id and the given list, followed by one abort of the same key and id only when the completion failed and the id is truthy; a failed completion's error is rethrown |
| S3Upload.AbortOutcomeInvisible | utils/aws/s3.utils.ts:180-191 | whether the abort succeeds or throws changes neither the result nor the requests |
| S3Upload.SecondOfThreePartsFails | utils/aws/s3.utils.ts:103-193 | on a three-part file whose second part fails, the caller sees that part's error, one abort carries the key and the obtained id, and no completion is sent, even when the abort throws |
| S3Listing.KeepVideos | utils/aws/s3.utils.ts:47 | an object is kept exactly when its key is not `videos/` |
| S3Listing.KeepVideosDistributes | utils/aws/s3.utils.ts:47 | the filter keeps the listing order |
| S3Listing.FileNameOf | utils/aws/s3.utils.ts:57 | the name is non-empty and holds no `/`. A missing key gives `Untitled`. Unless it is `Untitled`, it is the end of the key, and a `/` comes right before it |
| S3Listing.FileNameOfFolderKey | utils/aws/s3.utils.ts:57 | for a key of folders followed by a file name, the result is that file name, or `Untitled` when the name is empty |
| S3Listing.ToItem | utils/aws/s3.utils.ts:49-61 | the item keeps the object's key as id, its date and size, carries the URL signed for an hour, and is named by a non-empty, `/`-free end of the key or `Untitled` |
| S3Listing.ListVideos | utils/aws/s3.utils.ts:34-70 | a store error is rethrown. A listing without `Contents` gives `[]`. Otherwise there is one item per kept object, in order, with its file name and signed URL, and never the folder marker |
| S3Listing.OnlyMarkerListsNothing | utils/aws/s3.utils.ts:43-47 | a listing holding only the folder marker gives no videos |
| TagList.Candidate | components/AnnotationForm.tsx:24 | the candidate tag is a stretch of the input with only white space before and after it, and it neither starts nor ends with white space |
| TagList.AddUnique | components/AnnotationForm.tsx:28-32 | the old tags stay first; the tag is in the result; the list grows by one exactly when the tag was absent; nothing else is added |
| TagList.AddUniqueKeepsNoDuplicates | components/AnnotationForm.tsx:28-32 | appending only absent tags keeps a list duplicate-free |
| TagList.Without | components/AnnotationForm.tsx:42 | every copy of the tag goes, and every other tag stays as many times as before |
| TagList.WithoutDistributes | components/AnnotationForm.tsx:42 | the filter keeps the order of the tags it keeps |
| TagList.WithoutAbsent | components/AnnotationForm.tsx:42 | removing an absent tag leaves the list as it was |
| TagList.WithoutKeepsNoDuplicates | components/AnnotationForm.tsx:42 | filtering keeps a list duplicate-free |
| TagList.AddThenRemoveRestores | components/AnnotationForm.tsx:21-44 | appending an absent tag and filtering it out restores the list |
| VideoContext.InitialIsConsistent | app/library/page.tsx:9-13 | the initial context (nothing selected, no id, empty list, index 0) is consistent and has no ids |
| VideoContext.RemoveAt | components/PendingVideoGrid.tsx:17 | `filter((_, i) => i !== index)` drops exactly the entry at the index, shifts the later entries down by one and adds nothing |
| VideoContext.NextIndex | components/PendingVideoGrid.tsx:26-29 | `min(current, remaining - 1)`: in bounds, not past the old index, and equal to one of the two |
| AnnotationForm.HandleAddTag | components/AnnotationForm.tsx:21-36 | only Enter with a non-blank input acts. It clears the input and puts the trimmed tag in the list after the old tags. The list grows exactly when the tag is new |
| AnnotationForm.HandleRemoveTag | components/AnnotationForm.tsx:38-45 | the tag is gone, every other tag keeps its count, and the input is untouched |
| AnnotationForm.HandlersKeepNoDuplicates | components/AnnotationForm.tsx:21-45 | both handlers keep the tag list duplicate-free |
| AnnotationForm.RemoveAbsentIsNoOp | components/AnnotationForm.tsx:38-45 | removing an absent tag changes nothing |
| AnnotationForm.AddThenRemoveRestoresTags | components/AnnotationForm.tsx:21-45 | entering a new tag and then removing it restores the tag list |
| VideoPlayer.HandleAddTag | components/VideoPlayer.tsx:17-25 | only Enter with non-blank input acts. It clears the input even for a duplicate. The trimmed tag is appended only when absent |
| VideoPlayer.AddTagAgreesWithAnnotationForm | components/VideoPlayer.tsx:17-25 | the player's add rule is the annotation form's, on every key and input |
| VideoPlayer.HandleRemoveTag | components/VideoPlayer.tsx:27-29 | the tag is gone, every other tag keeps its count, and the other fields are untouched |
| VideoPlayer.HandlersKeepNoDuplicates | components/VideoPlayer.tsx:17-29 | both handlers keep the tag list duplicate-free |
| VideoPlayer.HandleSave | components/VideoPlayer.tsx:31-61 | with no file, nothing happens. Otherwise the form's fields are inserted with an empty path. A failed insert leaves the form as it was. A successful one clears the title, description, tags and selection, but not the tag input |
| VideoPlayer.Replay | components/VideoPlayer.tsx:10-61 | replaying the page's events (typing, key presses, tag removals, saves) never selects a file that was not selected at the start |
| VideoPlayer.SaveNeverInserts | components/VideoPlayer.tsx:15-60 | from the first render, where no file is selected, every sequence of edits and saves keeps the selection empty and inserts no row: the only setter call resets the file to `null` |
| VideoPlayer.SaveThenSaveDoesNothing | components/VideoPlayer.tsx:31-61 | after a successful save no file is selected, so a second save inserts nothing and changes nothing; a save never brings a duplicate tag |
| VideoUploader.VideoFiles | components/VideoUploader.tsx:16-18 | a file is kept exactly when its type starts with `video/` |
| VideoUploader.VideoFilesDistributes | components/VideoUploader.tsx:16-18 | the filter keeps the original order |
| VideoUploader.Intake | components/VideoUploader.tsx:20-25 | with no video, nothing changes. Otherwise the videos replace the pending list, each with a null id; the first is selected; the index is 0; `videoId` is untouched |
| VideoUploader.HandleDrop | components/VideoUploader.tsx:12-26 | with no video among the dropped files nothing changes; otherwise the videos, in order and with null ids, replace the pending list, and the first is selected at index 0 |
| VideoUploader.HandleFileSelect | components/VideoUploader.tsx:38-49 | with no file list nothing changes; otherwise the chosen files are taken in exactly as dropped files are |
| VideoUploader.DropAndBrowseAgree | components/VideoUploader.tsx:38-49 | browsing applies the same transformation as dropping, and a missing file list changes nothing |
| VideoUploader.IntakeKeepsInvariants | components/VideoUploader.tsx:12-26 | intake keeps the selection consistent with the list and brings in no ids |
| PendingVideoGrid.RemoveVideo | components/PendingVideoGrid.tsx:15-36 | after removing the entry at the index: an empty list means no selection and index 0. Removing the current entry makes `min(current, newLen - 1)` current and selects its file. Removing an earlier entry moves the index down by one and keeps the selection. Removing a later entry keeps both. `videoId` is untouched |
| PendingVideoGrid.RemoveKeepsInvariants | components/PendingVideoGrid.tsx:15-36 | removing the entry at any index (one past the end removes nothing) from a consistent state keeps the index in bounds and the selection equal to the file at the index |
| VideoAnnotation.HandleAddTag | components/VideoAnnotation.tsx:32-38 | only Enter with a non-blank input acts: it appends the trimmed tag at the end, with no duplicate check, and clears the input |
| VideoAnnotation.AddTagKeepsDuplicates | components/VideoAnnotation.tsx:35 | entering a tag already listed adds a second copy |
| VideoAnnotation.HandleSelectVideo | components/VideoAnnotation.tsx:40-44 | the index becomes the given one; the selected file and id become that entry's; the list is untouched; the state is consistent |
| VideoAnnotation.Extension | components/VideoAnnotation.tsx:55 | the extension is a dot-free end of the name, preceded by a dot unless it is the whole name |
| VideoAnnotation.UploadName | components/VideoAnnotation.tsx:56 | the unique name is the stamp, a dot and the file's extension, so its own extension is the file's |
| VideoAnnotation.ExtensionCases | components/VideoAnnotation.tsx:55 | a name without a dot is its own extension; otherwise the extension is the text after the last dot |
| VideoAnnotation.Advance | components/VideoAnnotation.tsx:93-117 | the list loses exactly the current entry and the form is reset. A non-empty list makes `min(current, newLen - 1)` current with that entry's file and id. An empty one leaves no selection, a null id and index 0 |
| VideoAnnotation.AdvanceKeepsInvariants | components/VideoAnnotation.tsx:93-117 | advancing leaves the selection consistent with the shorter list and brings in no id |
| VideoAnnotation.Record | components/VideoAnnotation.tsx:65-123 | the save completes exactly when the upload and both inserts succeed. Any error leaves the state as it was, apart from the spinner and progress. A failed upload inserts nothing and a failed video insert is followed by no annotation insert. Success inserts the video row with the URL and then the annotation row with the video's id and the form, and advances |
| VideoAnnotation.HandleSave | components/VideoAnnotation.tsx:46-124 | with no selection nothing happens. Otherwise the transfer is exactly the upload of the file under `published-videos/{stamp}.{extension}`, and the spinner stops. A failed upload inserts nothing; a failed video insert is followed by no annotation insert; once the video row is in, the annotation row follows, whether or not it succeeds. Success and advancing are as in `Record` |
| VideoAnnotation.SaveKeepsInvariants | components/VideoAnnotation.tsx:46-124 | a save from a consistent state leaves it consistent and brings in no id |

## Left out

- AWS SDK clients, credentials and environment variables (utils/aws/s3.utils.ts:14-30): the bucket and region are a `Config` value, and every `send` is answered by the `Store` input.
- Reading a part's slice (`file.slice(start, end).arrayBuffer()`, utils/aws/s3.utils.ts:126) is assumed to succeed. A failed read would send no `UploadPart` for that part and fail the part with the read error, which `Promise.all` could then surface; the model has no read-failure outcome.
- Concurrency of the part uploads: `Promise.all` is modelled by its caller-visible effect only. Which failed part's error surfaces is chosen by the `settleRank` input. `Promise.all` does not cancel the part tasks, so every part whose slice can be read sends its request, even after another part has failed. Each `UploadPart` leaves only after `await file.slice(start, end).arrayBuffer()` (utils/aws/s3.utils.ts:126), so in the source a part request can go out after another part has settled, or even after the abort. The trace lists every `UploadPart` right after the create and before any completion or abort; that order is an abstraction. The model does not describe interleavings.
- Progress reporting: `uploadedBytes` (utils/aws/s3.utils.ts:120, 146) is never read. `uploadToS3` ignores the callback `handleSave` passes it, so `progress` appears only as the value 0 that `handleSave` sets.
- Signed URLs (utils/aws/s3.utils.ts:53) are an opaque total function `sign(key, expiry)`; a signing failure is not modelled.
- Console logging is left out.
- `Date.now()` and `Math.random()` in the unique name (components/VideoAnnotation.tsx:56) are the `stamp` parameter.
- The Supabase inserts are inputs: a `Result` for the video row (its id on success) and an `Outcome` for the annotation row.
- `ListedObject.lastModified` stands for the `Date` as a number; no date arithmetic happens.
- VideoAnnotation.HandleSelectVideo: requires an index inside the pending list, since the grid only calls it with the index of a rendered entry. JavaScript would throw on `pendingVideos[index].file` otherwise.
- `PendingVideoGrid` reads the list and the index from its props (components/PendingVideoGrid.tsx:7-11) but writes through the context setters (12-13). The model keeps one `Session`, so it assumes the parent passes the context's own values as props. The component that renders the grid is not part of this model.
- Saves are atomic in the model. `handleSave` of `VideoAnnotation` computes its new state from the values it read when clicked, after awaiting the upload and both inserts (components/VideoAnnotation.tsx:59-117), and `handleSave` of `VideoPlayer` does the same (components/VideoPlayer.tsx:31-61). Drops, selections or edits made while a save is in flight are overwritten or ignored by the source; the model does not describe such interleavings.
- `VideoPlayer` never obtains a file: `selectedVideo` starts as `null` (components/VideoPlayer.tsx:15) and its only setter call sets it back to `null` (60). In the component, `handleSave` therefore always returns at line 32. `VideoPlayer.HandleSave` still models every branch of the function body with the selection as an input, and `VideoPlayer.SaveNeverInserts` shows that from the first render no insert happens.
- File identity: `File` is a value (name, type and bytes). The logic modelled here never compares files, so reference identity plays no part.
- `utils/aws/compressions.utils.ts` (a foreign ffmpeg call), `components/LoadingBar.tsx` (timer-driven, floating point), and all rendering, routing and type-only files are not part of this model.
- Text.Trim: treats the ECMAScript white space and line terminator code points as the fixed list in `Text.JsSpaces`. Characters outside the Basic Multilingual Plane are not white space, which matches the standard.

=== FILE: annotation_form.dfy ===
/** The tag editing of components/AnnotationForm.tsx: Enter adds the trimmed
    tag input to the form's `tags` unless it is blank or already present, and
    a tag's remove button filters it out. */
module AnnotationForm {
  import Text
  import opened TagList

  /** The form's `tags` value and the local `tagInput` text. */
  datatype TagField = TagField(tags: seq<string>, input: string)

  /** `handleAddTag` for a key press `key`. */
  function HandleAddTag(key: string, f: TagField): (r: TagField)
    // only Enter with a non-blank input does anything
    ensures key != Enter || Text.Blank(f.input) ==> r == f
    // then the input is cleared and the trimmed tag is in the list, after the old tags
    ensures key == Enter && !Text.Blank(f.input) ==>
      && r.input == []
      && Candidate(f.input) in r.tags
      && |r.tags| >= |f.tags| && r.tags[..|f.tags|] == f.tags
    // the list grows exactly when the trimmed tag is new
    ensures |r.tags| == |f.tags| + 1 <==> key == Enter && !Text.Blank(f.input) && Candidate(f.input) !in f.tags
    ensures |r.tags| <= |f.tags| + 1
  {
    if key == Enter then
      var tag := Candidate(f.input);
      if tag != [] then TagField(AddUnique(f.tags, tag), []) else f
    else f
  }

  /** `handleRemoveTag`. */
  function HandleRemoveTag(tag: string, f: TagField): (r: TagField)
    ensures r.input == f.input
    ensures tag !in r.tags
    ensures forall x :: x != tag ==> multiset(r.tags)[x] == multiset(f.tags)[x]
  {
    var tags := Without(f.tags, tag);
    assert multiset(tags)[tag] == 0;
    TagField(tags, f.input)
  }

  /** A list without duplicates stays without duplicates under both handlers. */
  lemma HandlersKeepNoDuplicates(key: string, tag: string, f: TagField)
    requires NoDuplicates(f.tags)
    ensures NoDuplicates(HandleAddTag(key, f).tags)
    ensures NoDuplicates(HandleRemoveTag(tag, f).tags)
  {
    AddUniqueKeepsNoDuplicates(f.tags, Candidate(f.input));
    WithoutKeepsNoDuplicates(f.tags, tag);
  }

  /** Removing a tag that is not in the list changes nothing. */
  lemma RemoveAbsentIsNoOp(tag: string, f: TagField)
    requires tag !in f.tags
    ensures HandleRemoveTag(tag, f) == f
  {
    WithoutAbsent(f.tags, tag);
  }

  /** Entering a new tag and then pressing its remove button restores the tag
      list. */
  lemma AddThenRemoveRestoresTags(f: TagField)
    requires !Text.Blank(f.input) && Candidate(f.input) !in f.tags
    ensures HandleRemoveTag(Candidate(f.input), HandleAddTag(Enter, f)).tags == f.tags
  {
    AddThenRemoveRestores(f.tags, Candidate(f.input));
  }
}

=== FILE: common.dfy ===
/** Vocabulary shared by the transfer engine and the UI state machines:
    optional values, results carrying a thrown error, the browser's `File`,
    and bytes. */
module Common {

  /** `T | null` / `T | undefined` in the source. */
  datatype Option<+T> = None | Some(value: T) {

    /** The value, or `default` when it is absent: `e.target.files || []`. */
    function GetOr(default: T): T {
      match this
      case Some(v) => v
      case None => default
    }
  }

  /** A thrown JavaScript error. The code only logs and rethrows errors, so the
      model keeps nothing but the message. */
  datatype Error = Error(message: string)

  /** A call that either returns a value or throws. */
  datatype Result<+T> = Success(value: T) | Failure(error: Error)

  /** A call whose return value the code ignores: it either settles or throws. */
  datatype Outcome = Pass | Fail(error: Error)

  newtype byte = x: int | 0 <= x < 256

  /** The browser `File`: its `name`, its declared MIME `type`, and its bytes
      (`file.size` is the number of bytes). */
  datatype File = File(name: string, mimeType: string, content: seq<byte>) {
    function Size(): nat {
      |content|
    }
  }

  function Min(a: int, b: int): int {
    if a <= b then a else b
  }
}

=== FILE: etag.dfy ===
/** The entity tag a part upload returns, as `uploadLargeFile` treats it
    (utils/aws/s3.utils.ts:139-151): at most one leading and one trailing
    double quote are stripped (`replace(/^"|"$/g, '')`), an empty or missing
    tag fails the part, and the tag handed to completion is re-wrapped in one
    pair of quotes, the quoted entity-tag form of section 8.8.3 of RFC 9110. */
module ETag {
  import opened Common

  const Quote: char := '"'

  /** `"${tag}"`. */
  function Quoted(tag: string): (r: string)
    ensures |r| == |tag| + 2 && r[0] == Quote && r[|r| - 1] == Quote
    ensures r[1..|r| - 1] == tag
  {
    [Quote] + tag + [Quote]
  }

  /** The `^"` alternative of the regular expression. */
  function DropLeadingQuote(s: string): (r: string)
    ensures if |s| > 0 && s[0] == Quote then s == [Quote] + r else r == s
  {
    if |s| > 0 && s[0] == Quote then s[1..] else s
  }

  /** The `"$` alternative of the regular expression. */
  function DropTrailingQuote(s: string): (r: string)
    ensures if |s| > 0 && s[|s| - 1] == Quote then s == r + [Quote] else r == s
  {
    if |s| > 0 && s[|s| - 1] == Quote then s[..|s| - 1] else s
  }

  /** `raw.replace(/^"|"$/g, '')`. With the global flag the expression removes
      a quote at the start and a quote at the end, each at most once; on the
      one-character text `"` both anchors see the same quote, which goes once.
      Dropping the leading quote first and then the trailing one of what is
      left does the same. */
  function StripQuotes(raw: string): (r: string)
    ensures if |raw| >= 2 && raw[0] == Quote && raw[|raw| - 1] == Quote then r == raw[1..|raw| - 1]
            else if |raw| >= 1 && raw[0] == Quote then r == raw[1..]
            else if |raw| >= 1 && raw[|raw| - 1] == Quote then r == raw[..|raw| - 1]
            else r == raw
  {
    DropTrailingQuote(DropLeadingQuote(raw))
  }

  /** The part's tag for completion: `None` when the response carries no tag
      or the stripped tag is empty (the part then fails), otherwise the
      stripped tag wrapped in exactly one pair of quotes. */
  function Normalize(raw: Option<string>): (r: Option<string>)
    ensures r.Some? ==> raw.Some? && |r.value| >= 3 && r.value == Quoted(StripQuotes(raw.value))
  {
    match raw
    case None => None
    case Some(t) =>
      var inner := StripQuotes(t);
      if inner == [] then None else Some(Quoted(inner))
  }

  /** A tag is rejected exactly when it is missing or is one of the three
      texts the stripping empties: ``, `"` and `""`. */
  lemma NormalizeRejects(raw: Option<string>)
    ensures Normalize(raw).None? <==> (raw.None? || raw.value == "" || raw.value == "\"" || raw.value == "\"\"")
  {
    if raw.Some? {
      var t := raw.value;
      if |t| == 1 {
        assert t == [t[0]];
      } else if |t| == 2 {
        assert t == [t[0], t[1]];
      }
    }
  }

  /** Stripping undoes quoting: the tag inside one pair of quotes comes back
      unchanged, whatever it contains. */
  lemma StripQuotesOfQuoted(tag: string)
    ensures StripQuotes(Quoted(tag)) == tag
  {
    var q := Quoted(tag);
    assert DropLeadingQuote(q) == tag + [Quote];
    assert DropTrailingQuote(tag + [Quote]) == tag;
  }

  /** A tag the store sends already quoted and one it sends bare are handed to
      completion in the same quoted form. */
  lemma QuotedAndBareAgree(tag: string)
    requires tag != []
    requires tag[0] != Quote && tag[|tag| - 1] != Quote
    ensures Normalize(Some(tag)) == Some(Quoted(tag))
    ensures Normalize(Some(Quoted(tag))) == Some(Quoted(tag))
  {
    StripQuotesOfQuoted(tag);
  }

  /** Normalizing a normalized tag changes nothing: the result is already in
      quoted form. */
  lemma NormalizeIdempotent(raw: Option<string>)
    ensures Normalize(Normalize(raw)) == Normalize(raw)
  {
    if Normalize(raw).Some? {
      var inner := StripQuotes(raw.value);
      StripQuotesOfQuoted(inner);
    }
  }
}

=== FILE: part_plan.dfy ===
/** How a large file is cut into parts for a multipart upload
    (utils/aws/s3.utils.ts, `CHUNK_SIZE` and steps 2 and 3 of
    `uploadLargeFile`). Parts are numbered from 1; the part at index `k`
    covers the bytes `[k * CHUNK_SIZE, min(k * CHUNK_SIZE + CHUNK_SIZE, size))`. */
module PartPlan {
  import opened Common

  /** `CHUNK_SIZE`: 5 MiB. It is both the part size and the largest file that
      takes the single-request path. */
  const ChunkSize: nat := 5 * 1024 * 1024

  /** `Math.ceil(size / CHUNK_SIZE)`: the least number of whole chunks that
      hold `size` bytes. */
  function NumParts(size: nat): (n: nat)
    ensures size <= n * ChunkSize
    ensures n > 0 ==> (n - 1) * ChunkSize < size
  {
    (size + ChunkSize - 1) / ChunkSize
  }

  /** The first byte of the part at `index` (`start` in the source). */
  function PartStart(index: nat): (start: nat)
    ensures start % ChunkSize == 0 && start / ChunkSize == index
  {
    index * ChunkSize
  }

  /** One past the last byte of the part at `index` (`end` in the source). */
  function PartEnd(index: nat, size: nat): (end: nat)
    ensures end <= size && end <= PartStart(index) + ChunkSize
    ensures end == size || end == PartStart(index) + ChunkSize
  {
    Min(index * ChunkSize + ChunkSize, size)
  }

  /** The store's 1-based `PartNumber` of the part at `index`. */
  function PartNumber(index: nat): (n: nat)
    ensures n >= 1 && n - 1 == index
  {
    index + 1
  }

  /** Every planned part is a non-empty range inside the file. All parts but
      the last are exactly one chunk long; the last ends at the end of the
      file and is at most one chunk long. */
  lemma PartBounds(size: nat, k: nat)
    requires k < NumParts(size)
    ensures PartStart(k) < PartEnd(k, size) <= size
    ensures PartEnd(k, size) - PartStart(k) <= ChunkSize
    ensures k + 1 < NumParts(size) ==> PartEnd(k, size) - PartStart(k) == ChunkSize
    ensures k + 1 == NumParts(size) ==> PartEnd(k, size) == size
  {
  }

  /** Consecutive parts touch: each part ends where the next one starts. */
  lemma PartsContiguous(size: nat, k: nat)
    requires k + 1 < NumParts(size)
    ensures PartEnd(k, size) == PartStart(k + 1)
  {
  }

  /** Every byte of the file lies in exactly one planned part, the one at
      index `offset / CHUNK_SIZE`: the parts are disjoint and cover the file. */
  lemma EveryByteInExactlyOnePart(size: nat, offset: nat)
    requires offset < size
    ensures offset / ChunkSize < NumParts(size)
    ensures PartStart(offset / ChunkSize) <= offset < PartEnd(offset / ChunkSize, size)
    ensures forall j :: 0 <= j < NumParts(size) && PartStart(j) <= offset < PartEnd(j, size) ==> j == offset / ChunkSize
  {
    var k := offset / ChunkSize;
    var n := NumParts(size);
    assert k * ChunkSize <= offset < k * ChunkSize + ChunkSize;
    forall j | 0 <= j < n && PartStart(j) <= offset < PartEnd(j, size)
      ensures j == k
    {
      assert j < k ==> j * ChunkSize + ChunkSize <= k * ChunkSize;
      assert j > k ==> k * ChunkSize + ChunkSize <= j * ChunkSize;
    }
  }

  /** `file.slice(start, end)` for the part at index `k`. */
  function PartBody(content: seq<byte>, k: nat): (body: seq<byte>)
    requires k < NumParts(|content|)
    ensures 0 < |body| <= ChunkSize
  {
    PartBounds(|content|, k);
    content[PartStart(k)..PartEnd(k, |content|)]
  }

  /** The bodies of the first `m` parts, joined in part order: what the store
      stitches together on completion. */
  function Assemble(content: seq<byte>, m: nat): seq<byte>
    requires m <= NumParts(|content|)
  {
    if m == 0 then [] else Assemble(content, m - 1) + PartBody(content, m - 1)
  }

  lemma {:induction false} AssembledPrefix(content: seq<byte>, m: nat)
    requires m <= NumParts(|content|)
    ensures Assemble(content, m) == content[..Min(m * ChunkSize, |content|)]
  {
    if m > 0 {
      AssembledPrefix(content, m - 1);
      PartBounds(|content|, m - 1);
      assert Min((m - 1) * ChunkSize, |content|) == PartStart(m - 1);
      assert PartEnd(m - 1, |content|) == Min(m * ChunkSize, |content|);
    }
  }

  /** Joining the bodies of all planned parts, in part-number order, gives back
      the file byte for byte. */
  lemma PartsReassembleFile(content: seq<byte>)
    ensures Assemble(content, NumParts(|content|)) == content
  {
    AssembledPrefix(content, NumParts(|content|));
  }

  /** A file of two chunks and 1024 bytes is cut into three parts of 5 MiB,
      5 MiB and 1024 bytes. */
  lemma TwoChunksAndAKilobyte()
    ensures NumParts(2 * ChunkSize + 1024) == 3
    ensures PartEnd(0, 2 * ChunkSize + 1024) - PartStart(0) == ChunkSize
    ensures PartEnd(1, 2 * ChunkSize + 1024) - PartStart(1) == ChunkSize
    ensures PartEnd(2, 2 * ChunkSize + 1024) - PartStart(2) == 1024
  {
  }
}

=== FILE: pending_video_grid.dfy ===
/** `handleRemoveVideo` of components/PendingVideoGrid.tsx: remove a pending
    video and keep the current index and the selection pointing at the same
    entry, or at its successor when the current entry itself goes. */
module PendingVideoGrid {
  import opened Common
  import opened VideoContext

  /** `handleRemoveVideo(index)`. The grid never touches `videoId`. */
  function RemoveVideo(index: nat, s: Session): (r: Session)
    ensures r.pending == RemoveAt(s.pending, index)
    ensures r.videoId == s.videoId
    // the list becomes empty: nothing selected, index 0
    ensures |r.pending| == 0 ==> r.selected.None? && r.current == 0
    // the current entry goes: its successor, or the new last entry, becomes current
    ensures |r.pending| > 0 && index == s.current ==>
      r.current == Min(s.current, |r.pending| - 1) && r.selected == Some(r.pending[r.current].file)
    // an earlier entry goes: the index moves down by one, the selection stays
    ensures |r.pending| > 0 && index < s.current ==> r.current == s.current - 1 && r.selected == s.selected
    // a later entry goes: index and selection stay
    ensures |r.pending| > 0 && index > s.current ==> r.current == s.current && r.selected == s.selected
  {
    var pending := RemoveAt(s.pending, index);
    if |pending| == 0 then s.(pending := pending, selected := None, current := 0)
    else if index == s.current then
      var next := NextIndex(s.current, |pending|);
      s.(pending := pending, selected := Some(pending[next].file), current := next)
    else if index < s.current then s.(pending := pending, current := s.current - 1)
    else s.(pending := pending)
  }

  /** Removal from a consistent state, at any index, leaves the index in
      bounds and the selection equal to the file at the index; ids stay
      unassigned. */
  lemma RemoveKeepsInvariants(index: nat, s: Session)
    requires Consistent(s)
    ensures Consistent(RemoveVideo(index, s))
    ensures IdsUnassigned(s) ==> IdsUnassigned(RemoveVideo(index, s))
  {
    var r := RemoveVideo(index, s);
    if |r.pending| > 0 && index < s.current {
      assert r.pending[s.current - 1] == s.pending[s.current];
    }
  }
}

=== FILE: s3_listing.dfy ===
/** `listVideos` of utils/aws/s3.utils.ts: list the objects under `videos/`,
    drop the `videos/` folder marker, and describe each remaining object with a
    file name and a time-limited read URL. Listing reads `videos/` while the
    upload paths write under `published-videos/`; the model keeps both
    prefixes as written. */
module S3Listing {
  import opened Common
  import Text

  /** The listing prefix, which is also the key of the folder marker object. */
  const ListPrefix: string := "videos/"

  /** `expiresIn` of the signed read URLs, in seconds. */
  const SignedUrlExpiry: nat := 3600

  const Untitled: string := "Untitled"

  /** One entry of `Contents`. The store may leave any field undefined;
      `LastModified` is kept as milliseconds since the epoch. */
  datatype ListedObject = ListedObject(key: Option<string>, lastModified: Option<int>, size: Option<nat>)

  /** The answer to `ListObjectsV2`: `Contents` (possibly undefined), or a
      thrown error. */
  datatype ListResponse = Listed(contents: Option<seq<ListedObject>>) | ListFailed(error: Error)

  /** The object `listVideos` returns per video. */
  datatype VideoItem = VideoItem(id: Option<string>, fileName: string, createdAt: Option<int>, awsPath: string, size: Option<nat>)

  /** `item.Key !== 'videos/'`. */
  predicate Kept(o: ListedObject) {
    o.key != Some(ListPrefix)
  }

  /** `Contents.filter(item => item.Key !== 'videos/')`. */
  function KeepVideos(objects: seq<ListedObject>): (r: seq<ListedObject>)
    ensures forall o :: o in r <==> o in objects && Kept(o)
    ensures |r| <= |objects|
  {
    if |objects| == 0 then []
    else
      var rest := KeepVideos(objects[..|objects| - 1]);
      var last := objects[|objects| - 1];
      assert objects == objects[..|objects| - 1] + [last];
      if Kept(last) then rest + [last] else rest
  }

  /** The filter keeps the order of the listing: filtering a concatenation is
      concatenating the filtered halves. */
  lemma {:induction false} KeepVideosDistributes(a: seq<ListedObject>, b: seq<ListedObject>)
    ensures KeepVideos(a + b) == KeepVideos(a) + KeepVideos(b)
    decreases |b|
  {
    if |b| == 0 {
      assert a + b == a;
    } else {
      var b' := b[..|b| - 1];
      assert (a + b)[..|a + b| - 1] == a + b';
      assert b[..|b| - 1] == b';
      KeepVideosDistributes(a, b');
    }
  }

  /** `item.Key?.split('/').pop() || 'Untitled'`: the text after the last `/`
      of the key, or `Untitled` when the key is undefined or ends in `/`. */
  function FileNameOf(key: Option<string>): (name: string)
    ensures name != [] && '/' !in name
    ensures key.None? ==> name == Untitled
    ensures key.Some? && name != Untitled ==> |name| <= |key.value| && key.value[|key.value| - |name|..] == name
    ensures key.Some? && name != Untitled && |name| < |key.value| ==> key.value[|key.value| - |name| - 1] == '/'
  {
    match key
    case None => Untitled
    case Some(k) =>
      var last := Text.AfterLast(k, '/');
      if last == [] then Untitled else last
  }

  /** A key made of folders and a non-empty file name yields that file name;
      a key ending in `/` yields `Untitled`. */
  lemma FileNameOfFolderKey(folders: string, name: string)
    requires folders == [] || folders[|folders| - 1] == '/'
    requires '/' !in name
    ensures FileNameOf(Some(folders + name)) == if name == [] then Untitled else name
  {
    Text.AfterLastIsTail(folders, name, '/');
  }

  /** The item for one kept object. `sign(key, expiry)` is `getSignedUrl` for
      a `GetObject` of that key. */
  function ToItem(o: ListedObject, sign: (Option<string>, nat) -> string): (item: VideoItem)
    ensures item.id == o.key && item.createdAt == o.lastModified && item.size == o.size
    ensures item.awsPath == sign(o.key, SignedUrlExpiry)
    ensures item.fileName != [] && '/' !in item.fileName
    ensures o.key.Some? && item.fileName != Untitled ==>
      |item.fileName| <= |o.key.value| && o.key.value[|o.key.value| - |item.fileName|..] == item.fileName
  {
    VideoItem(o.key, FileNameOf(o.key), o.lastModified, sign(o.key, SignedUrlExpiry), o.size)
  }

  /** `listVideos`. A failed listing rethrows its error; a listing without
      `Contents` gives no videos; otherwise one item per kept object, in
      listing order. */
  function ListVideos(response: ListResponse, sign: (Option<string>, nat) -> string): (r: Result<seq<VideoItem>>)
    ensures r.Failure? <==> response.ListFailed?
    ensures r.Failure? ==> r.error == response.error
    ensures response.Listed? && response.contents.None? ==> r == Success([])
    ensures r.Success? && response.contents.Some? ==>
      var kept := KeepVideos(response.contents.value);
      && |r.value| == |kept|
      && forall i :: 0 <= i < |kept| ==> r.value[i] == ToItem(kept[i], sign)
    ensures r.Success? ==> forall i :: 0 <= i < |r.value| ==> r.value[i].id != Some(ListPrefix)
  {
    match response
    case ListFailed(e) => Failure(e)
    case Listed(None) => Success([])
    case Listed(Some(objects)) =>
      var kept := KeepVideos(objects);
      assert forall i :: 0 <= i < |kept| ==> kept[i] in kept;
      Success(seq(|kept|, i requires 0 <= i < |kept| => ToItem(kept[i], sign)))
  }

  /** A listing whose only object is the folder marker gives no videos. */
  lemma OnlyMarkerListsNothing(marker: ListedObject, sign: (Option<string>, nat) -> string)
    requires marker.key == Some(ListPrefix)
    ensures ListVideos(Listed(Some([marker])), sign) == Success([])
  {
    assert KeepVideos([marker]) == KeepVideos([]) by {
      assert [marker][..0] == [];
    }
  }
}

=== FILE: s3_upload.dfy ===
/** The transfer engine of utils/aws/s3.utils.ts: `uploadToS3` routes a file by
    size to `uploadSmallFile` (one `PutObject`) or `uploadLargeFile` (create a
    multipart upload, send every part, complete with the sorted part list, and
    abort on failure).

    Every store call is an input: a `Store` value says what each request
    answers. A run returns the caller-visible result together with the
    requests it sent, in the order the code issues them. */
module S3Upload {
  import opened Common
  import opened PartPlan
  import ETag
  import Text

  /** The bucket and region read from the environment. */
  datatype Config = Config(bucket: string, region: string)

  /** Uploads go under `published-videos/`. */
  const KeyPrefix: string := "published-videos/"

  /** `s3Path` of both upload paths: the file name under the upload prefix. */
  function ObjectKey(fileName: string): (key: string)
    ensures Text.StartsWith(key, KeyPrefix) && key[|KeyPrefix|..] == fileName
  {
    KeyPrefix + fileName
  }

  /** `https://{bucket}.s3.{region}.amazonaws.com/{key}`: the URL both paths
      return on success. */
  function PublicUrl(cfg: Config, key: string): (url: string)
    ensures Text.StartsWith(url, "https://" + cfg.bucket + ".s3." + cfg.region + ".amazonaws.com/")
    ensures |url| == |"https://" + cfg.bucket + ".s3." + cfg.region + ".amazonaws.com/"| + |key|
    ensures url[|url| - |key|..] == key
  {
    UrlHead(cfg) + key
  }

  function UrlHead(cfg: Config): string {
    "https://" + cfg.bucket + ".s3." + cfg.region + ".amazonaws.com/"
  }

  /** The URL of an upload ends with the object key, so two file names give
      two different URLs in the same bucket. */
  lemma PublicUrlNamesFile(cfg: Config, a: string, b: string)
    ensures var url := PublicUrl(cfg, ObjectKey(a)); |url| >= |a| && url[|url| - |a|..] == a
    ensures PublicUrl(cfg, ObjectKey(a)) == PublicUrl(cfg, ObjectKey(b)) ==> a == b
  {
    var head := UrlHead(cfg) + KeyPrefix;
    assert PublicUrl(cfg, ObjectKey(a)) == head + a;
    assert PublicUrl(cfg, ObjectKey(b)) == head + b;
    assert (head + a)[|head|..] == a;
    assert (head + b)[|head|..] == b;
  }

  /** One entry of `MultipartUpload.Parts`. */
  datatype CompletedPart = CompletedPart(partNumber: nat, etag: string)

  /** The requests the engine sends, with the fields the model tracks. An
      `UploadId` that the create call left undefined is `None`. */
  datatype Request =
    | PutObject(key: string, contentType: string, body: seq<byte>)
    | CreateMultipartUpload(key: string, contentType: string)
    | UploadPart(key: string, uploadId: Option<string>, partNumber: nat, body: seq<byte>)
    | CompleteMultipartUpload(key: string, uploadId: Option<string>, parts: seq<CompletedPart>)
    | AbortMultipartUpload(key: string, uploadId: Option<string>)

  /** What `CreateMultipartUpload` answers: a response whose `UploadId` may be
      missing, or a thrown error. */
  datatype CreateResponse = Created(uploadId: Option<string>) | CreateFailed(error: Error)

  /** What `UploadPart` answers: a response whose `ETag` may be missing, or a
      thrown error. */
  datatype PartResponse = PartStored(etag: Option<string>) | PartFailed(error: Error)

  /** The store's behaviour during one upload. `partAnswer(k)` is the answer to
      the part at index `k`; `settleRank(k)` orders the moments at which the
      concurrent part calls settle, so that `Promise.all` rejects with the
      failure that settles first (on a tie, the lower index). */
  datatype Store = Store(
    put: Outcome,
    create: CreateResponse,
    partAnswer: nat -> PartResponse,
    settleRank: nat -> nat,
    complete: Outcome,
    // never read: the code swallows whatever the abort does, which is why
    // AbortOutcomeInvisible holds by construction
    abort: Outcome)

  /** The caller-visible result (the URL, or the rethrown error) and the
      requests sent. */
  datatype Run = Run(result: Result<string>, requests: seq<Request>)

  // ---------------------------------------------------------------------------
  // Routing

  /** `uploadToS3`: files of at most `CHUNK_SIZE` bytes take one `PutObject`;
      larger files go multipart. */
  function UploadToS3(cfg: Config, file: File, fileName: string, store: Store): (run: Run)
    ensures file.Size() <= ChunkSize ==> run.requests == [PutObject(ObjectKey(fileName), file.mimeType, file.content)]
    ensures file.Size() > ChunkSize ==> |run.requests| >= 1 && run.requests[0] == CreateMultipartUpload(ObjectKey(fileName), file.mimeType)
    ensures run.result.Success? ==> run.result.value == PublicUrl(cfg, ObjectKey(fileName))
    // a small file succeeds exactly when the store accepts it, and fails with the store's error
    ensures file.Size() <= ChunkSize ==>
      && (run.result.Success? <==> store.put.Pass?)
      && (run.result.Failure? ==> run.result.error == store.put.error)
    // a large file succeeds exactly when the create, every part and the completion succeed,
    // and fails with the first error the multipart path meets
    ensures file.Size() > ChunkSize ==>
      && (run.result.Success? <==>
            store.create.Created? && AllStored(PartOutcomes(store, NumParts(file.Size()))) && store.complete.Pass?)
      && (run.result.Failure? ==>
            if store.create.CreateFailed? then run.result.error == store.create.error
            else if !AllStored(PartOutcomes(store, NumParts(file.Size()))) then
              run.result.error == PartOutcomes(store, NumParts(file.Size()))[FirstRejected(PartOutcomes(store, NumParts(file.Size())), store.settleRank).value].error
            else run.result.error == store.complete.error)
  {
    if file.Size() <= ChunkSize then UploadSmallFile(cfg, file, fileName, store)
    else UploadLargeFile(cfg, file, fileName, store)
  }

  /** A file routed to the multipart path always has at least two parts. */
  lemma MultipartHasSeveralParts(size: nat)
    requires size > ChunkSize
    ensures NumParts(size) >= 2
  {
  }

  // ---------------------------------------------------------------------------
  // Single request

  /** `uploadSmallFile`: one `PutObject` with the whole body and the file's
      content type. Its error, if any, is rethrown unchanged. */
  function UploadSmallFile(cfg: Config, file: File, fileName: string, store: Store): (run: Run)
    ensures run.requests == [PutObject(ObjectKey(fileName), file.mimeType, file.content)]
    ensures run.result.Success? <==> store.put.Pass?
    ensures run.result.Success? ==> run.result.value == PublicUrl(cfg, run.requests[0].key)
    ensures run.result.Failure? ==> run.result.error == store.put.error
  {
    var key := ObjectKey(fileName);
    var sent := [PutObject(key, file.mimeType, file.content)];
    match store.put
    case Pass => Run(Success(PublicUrl(cfg, key)), sent)
    case Fail(e) => Run(Failure(e), sent)
  }

  // ---------------------------------------------------------------------------
  // Parts

  const MissingETagPrefix: string := "Failed to get ETag for part "

  /** `new Error(\`Failed to get ETag for part ${n}\`)`: the message names the
      part, and the number can be read back from it. */
  function MissingETagError(partNumber: nat): (e: Error)
    ensures Text.StartsWith(e.message, MissingETagPrefix)
    ensures e.message[|MissingETagPrefix|..] == Text.Decimal(partNumber)
    ensures Text.ParseDecimal(e.message[|MissingETagPrefix|..]) == partNumber
  {
    Text.ParseDecimalOfDecimal(partNumber);
    var message := MissingETagPrefix + Text.Decimal(partNumber);
    assert message[|MissingETagPrefix|..] == Text.Decimal(partNumber);
    Error(message)
  }

  /** The missing-tag error names its part: two parts never fail with the same
      missing-tag error. */
  lemma MissingETagErrorNamesPart(a: nat, b: nat)
    requires MissingETagError(a) == MissingETagError(b)
    ensures a == b
  {
    assert MissingETagError(a).message == MissingETagError(b).message;
  }

  /** The settled value of the part task at index `k`: the call's own error,
      the missing-tag error naming part `k + 1`, or part `k + 1` with its tag
      in quoted form. */
  function PartOutcome(store: Store, k: nat): (r: Result<CompletedPart>)
    ensures store.partAnswer(k).PartFailed? ==> r == Failure(store.partAnswer(k).error)
    ensures store.partAnswer(k).PartStored? && r.Failure? ==> r.error == MissingETagError(k + 1)
    ensures r.Success? ==>
      && store.partAnswer(k).PartStored? && store.partAnswer(k).etag.Some?
      && r.value == CompletedPart(k + 1, ETag.Quoted(ETag.StripQuotes(store.partAnswer(k).etag.value)))
  {
    match store.partAnswer(k)
    case PartFailed(e) => Failure(e)
    case PartStored(raw) =>
      match ETag.Normalize(raw)
      case None => Failure(MissingETagError(PartNumber(k)))
      case Some(tag) => Success(CompletedPart(PartNumber(k), tag))
  }

  /** A part fails with the error naming it exactly when the store answered
      without a usable tag; a part whose call succeeded with a usable tag
      yields its part number and the re-quoted tag. */
  lemma PartOutcomeCases(store: Store, k: nat)
    ensures store.partAnswer(k).PartStored? ==>
      var raw := store.partAnswer(k).etag;
      && (PartOutcome(store, k) == Failure(MissingETagError(k + 1))
          <==> (raw.None? || raw.value == "" || raw.value == "\"" || raw.value == "\"\""))
      && (PartOutcome(store, k).Success? ==>
          PartOutcome(store, k).value == CompletedPart(k + 1, ETag.Quoted(ETag.StripQuotes(raw.value))))
    ensures store.partAnswer(k).PartFailed? ==> PartOutcome(store, k) == Failure(store.partAnswer(k).error)
  {
    if store.partAnswer(k).PartStored? {
      var raw := store.partAnswer(k).etag;
      ETag.NormalizeRejects(raw);
    }
  }

  /** The results of `Promise.all(uploadPromises)`, in part-index order. */
  function PartOutcomes(store: Store, n: nat): (outs: seq<Result<CompletedPart>>)
    ensures |outs| == n
    ensures forall k :: 0 <= k < n ==> outs[k] == PartOutcome(store, k)
  {
    seq(n, k requires 0 <= k < n => PartOutcome(store, k))
  }

  predicate AllStored(outs: seq<Result<CompletedPart>>) {
    forall k :: 0 <= k < |outs| ==> outs[k].Success?
  }

  function Values(outs: seq<Result<CompletedPart>>): (parts: seq<CompletedPart>)
    requires AllStored(outs)
    ensures |parts| == |outs|
    ensures forall k :: 0 <= k < |outs| ==> parts[k] == outs[k].value
  {
    seq(|outs|, k requires 0 <= k < |outs| => outs[k].value)
  }

  /** The failed part whose rejection `Promise.all` reports: the one that
      settles first, the lowest index among those that settle together. `None`
      when every part succeeded. */
  function FirstRejected(outs: seq<Result<CompletedPart>>, rank: nat -> nat): (k: Option<nat>)
    ensures k.None? <==> AllStored(outs)
    ensures k.Some? ==> k.value < |outs| && outs[k.value].Failure?
    ensures k.Some? ==> forall j :: 0 <= j < |outs| && outs[j].Failure? ==>
      rank(k.value) < rank(j) || (rank(k.value) == rank(j) && k.value <= j)
  {
    if |outs| == 0 then None
    else
      var last := |outs| - 1;
      var earlier := FirstRejected(outs[..last], rank);
      if outs[last].Success? then earlier
      else if earlier.Some? && rank(earlier.value) <= rank(last) then earlier
      else Some(last)
  }

  /** The `UploadPart` requests, one per planned part, in index order, all
      launched before any of them settles. */
  function PartRequests(key: string, uploadId: Option<string>, content: seq<byte>): (reqs: seq<Request>)
    ensures |reqs| == NumParts(|content|)
    ensures forall k :: 0 <= k < |reqs| ==> reqs[k] == UploadPart(key, uploadId, PartNumber(k), PartBody(content, k))
  {
    seq(NumParts(|content|), k requires 0 <= k < NumParts(|content|) => UploadPart(key, uploadId, PartNumber(k), PartBody(content, k)))
  }

  // ---------------------------------------------------------------------------
  // Sorting the part list

  predicate SortedByPartNumber(parts: seq<CompletedPart>) {
    forall i, j :: 0 <= i < j < |parts| ==> parts[i].partNumber <= parts[j].partNumber
  }

  /** An entry no later than the head of a sorted list can go in front of it. */
  lemma ConsSorted(x: CompletedPart, rest: seq<CompletedPart>)
    requires SortedByPartNumber(rest)
    requires |rest| == 0 || x.partNumber <= rest[0].partNumber
    ensures SortedByPartNumber([x] + rest)
  {
  }

  function InsertByPartNumber(p: CompletedPart, parts: seq<CompletedPart>): (r: seq<CompletedPart>)
    requires SortedByPartNumber(parts)
    ensures SortedByPartNumber(r)
    ensures multiset(r) == multiset(parts) + multiset{p}
    ensures |r| == |parts| + 1
    ensures r[0] == p || (|parts| > 0 && r[0] == parts[0])
  {
    if |parts| == 0 || p.partNumber <= parts[0].partNumber then [p] + parts
    else
      var rest := InsertByPartNumber(p, parts[1..]);
      assert parts == [parts[0]] + parts[1..];
      assert multiset(parts) == multiset{parts[0]} + multiset(parts[1..]);
      ConsSorted(parts[0], rest);
      [parts[0]] + rest
  }

  /** `parts.sort((a, b) => a.PartNumber - b.PartNumber)`. The result is sorted
      and holds the same entries; the part numbers are distinct
      (CompletedPartsNumbered), so the order among equal numbers never
      matters. */
  function SortByPartNumber(parts: seq<CompletedPart>): (r: seq<CompletedPart>)
    ensures SortedByPartNumber(r)
    ensures multiset(r) == multiset(parts)
  {
    if |parts| == 0 then []
    else
      assert parts == [parts[0]] + parts[1..];
      InsertByPartNumber(parts[0], SortByPartNumber(parts[1..]))
  }

  /** Sorting a list that is already in part-number order changes nothing. */
  lemma {:induction false} SortKeepsSortedList(parts: seq<CompletedPart>)
    requires SortedByPartNumber(parts)
    ensures SortByPartNumber(parts) == parts
  {
    if |parts| > 0 {
      SortKeepsSortedList(parts[1..]);
      assert [parts[0]] + parts[1..] == parts;
    }
  }

  /** When every part succeeded, the index-ordered results carry the part
      numbers `1..numParts`, each once and in ascending order; the sort before
      completion leaves them as they are. */
  lemma CompletedPartsNumbered(store: Store, n: nat)
    ensures AllStored(PartOutcomes(store, n)) ==>
      && (forall k :: 0 <= k < n ==> Values(PartOutcomes(store, n))[k].partNumber == k + 1)
      && SortByPartNumber(Values(PartOutcomes(store, n))) == Values(PartOutcomes(store, n))
  {
    if !AllStored(PartOutcomes(store, n)) {
      return;
    }
    var parts := Values(PartOutcomes(store, n));
    forall k | 0 <= k < n
      ensures parts[k].partNumber == k + 1
    {
      assert PartOutcome(store, k).Success?;
    }
    SortKeepsSortedList(parts);
  }

  // ---------------------------------------------------------------------------
  // What the trace says

  /** The abort requests of a trace, in order. */
  function Aborts(reqs: seq<Request>): seq<Request> {
    if |reqs| == 0 then []
    else
      var last := reqs[|reqs| - 1];
      Aborts(reqs[..|reqs| - 1]) + (if last.AbortMultipartUpload? then [last] else [])
  }

  /** The completion requests of a trace, in order. */
  function Completions(reqs: seq<Request>): seq<Request> {
    if |reqs| == 0 then []
    else
      var last := reqs[|reqs| - 1];
      Completions(reqs[..|reqs| - 1]) + (if last.CompleteMultipartUpload? then [last] else [])
  }

  /** A trace made only of create and part requests holds neither an abort
      nor a completion. */
  lemma {:induction false} NoFinishIn(reqs: seq<Request>)
    requires forall i :: 0 <= i < |reqs| ==> reqs[i].CreateMultipartUpload? || reqs[i].UploadPart?
    ensures Aborts(reqs) == [] && Completions(reqs) == []
  {
    if |reqs| > 0 {
      NoFinishIn(reqs[..|reqs| - 1]);
    }
  }

  lemma AppendOne(reqs: seq<Request>, r: Request)
    ensures Aborts(reqs + [r]) == Aborts(reqs) + (if r.AbortMultipartUpload? then [r] else [])
    ensures Completions(reqs + [r]) == Completions(reqs) + (if r.CompleteMultipartUpload? then [r] else [])
  {
    assert (reqs + [r])[..|reqs|] == reqs;
  }

  /** JavaScript truthiness of `uploadId` (`string | undefined`): the two
      falsy values are `undefined` and the empty string. */
  function HasUploadId(uploadId: Option<string>): (truthy: bool)
    ensures truthy <==> uploadId != None && uploadId != Some("")
  {
    match uploadId
    case None => false
    case Some(id) => |id| > 0
  }

  /** A create answer without a usable id does not stop the upload: every
      part is still sent, carrying that same id, and completion is still
      requested when the parts succeed, but a failure sends no abort. */
  lemma FalsyUploadIdSkipsAbort(cfg: Config, file: File, fileName: string, store: Store)
    requires store.create == Created(None) || store.create == Created(Some(""))
    ensures var run := UploadLargeFile(cfg, file, fileName, store);
      && Aborts(run.requests) == []
      && run.requests ==
           [CreateMultipartUpload(ObjectKey(fileName), file.mimeType)]
           + PartRequests(ObjectKey(fileName), store.create.uploadId, file.content)
           + (if AllStored(PartOutcomes(store, NumParts(file.Size())))
              then [CompleteMultipartUpload(ObjectKey(fileName), store.create.uploadId, Values(PartOutcomes(store, NumParts(file.Size()))))]
              else [])
  {
    assert !HasUploadId(store.create.uploadId);
  }

  // ---------------------------------------------------------------------------
  // Multipart

  /** The `catch` block of `uploadLargeFile`: abort once if an upload id was
      obtained, then rethrow the original error whatever the abort did. */
  function Unwind(error: Error, key: string, uploadId: Option<string>, sent: seq<Request>): (run: Run)
    ensures run.result == Failure(error)
    ensures HasUploadId(uploadId) ==> run.requests == sent + [AbortMultipartUpload(key, uploadId)]
    ensures !HasUploadId(uploadId) ==> run.requests == sent
  {
    if HasUploadId(uploadId) then Run(Failure(error), sent + [AbortMultipartUpload(key, uploadId)])
    else Run(Failure(error), sent)
  }

  /** `uploadLargeFile`. */
  function UploadLargeFile(cfg: Config, file: File, fileName: string, store: Store): (run: Run)
    // the multipart upload is created first, for the key and the file's type
    ensures |run.requests| >= 1 && run.requests[0] == CreateMultipartUpload(ObjectKey(fileName), file.mimeType)
    // a failed create ends the transfer: nothing else is sent, no abort
    ensures store.create.CreateFailed? ==> run == Run(Failure(store.create.error), [run.requests[0]])
    // otherwise exactly these go out, in this order: the create, every planned part, the
    // completion when every part succeeded, and the abort after any failure when the id is truthy
    ensures store.create.Created? ==>
      run.requests ==
        [CreateMultipartUpload(ObjectKey(fileName), file.mimeType)]
        + PartRequests(ObjectKey(fileName), store.create.uploadId, file.content)
        + (if AllStored(PartOutcomes(store, NumParts(file.Size())))
           then [CompleteMultipartUpload(ObjectKey(fileName), store.create.uploadId, Values(PartOutcomes(store, NumParts(file.Size()))))]
           else [])
        + (if run.result.Failure? && HasUploadId(store.create.uploadId)
           then [AbortMultipartUpload(ObjectKey(fileName), store.create.uploadId)]
           else [])
    // every planned part is sent, numbered from 1, with its byte range
    ensures store.create.Created? ==>
      && |run.requests| > NumParts(file.Size())
      && forall k :: 0 <= k < NumParts(file.Size()) ==>
           run.requests[1 + k] == UploadPart(ObjectKey(fileName), store.create.uploadId, k + 1, PartBody(file.content, k))
    // success exactly when create, every part and completion succeed
    ensures run.result.Success? <==>
      store.create.Created? && AllStored(PartOutcomes(store, NumParts(file.Size()))) && store.complete.Pass?
    ensures run.result.Success? ==> run.result.value == PublicUrl(cfg, ObjectKey(fileName))
    // completion is requested once, only when every part succeeded, for the key and the
    // create call's id, with the parts in part-number order
    ensures Completions(run.requests) ==
      if store.create.Created? && AllStored(PartOutcomes(store, NumParts(file.Size())))
      then [CompleteMultipartUpload(ObjectKey(fileName), store.create.uploadId, Values(PartOutcomes(store, NumParts(file.Size()))))]
      else []
    // exactly one abort, of the key and the obtained id, after any failure that follows a
    // create returning an id
    ensures Aborts(run.requests) ==
      if run.result.Failure? && store.create.Created? && HasUploadId(store.create.uploadId)
      then [AbortMultipartUpload(ObjectKey(fileName), store.create.uploadId)]
      else []
    // the error the caller sees is the original one
    ensures run.result.Failure? ==>
      if store.create.CreateFailed? then run.result.error == store.create.error
      else if !AllStored(PartOutcomes(store, NumParts(file.Size()))) then
        run.result.error == PartOutcomes(store, NumParts(file.Size()))[FirstRejected(PartOutcomes(store, NumParts(file.Size())), store.settleRank).value].error
      else run.result.error == store.complete.error
  {
    match store.create
    case CreateFailed(e) => Run(Failure(e), [CreateMultipartUpload(ObjectKey(fileName), file.mimeType)])
    case Created(uploadId) => Multipart(cfg, file, ObjectKey(fileName), uploadId, store)
  }

  /** Steps 2 to 5 of `uploadLargeFile` and its `catch` block, once the
      create request has answered with `uploadId` (which may be missing). */
  function Multipart(cfg: Config, file: File, key: string, uploadId: Option<string>, store: Store): (run: Run)
    ensures run.requests ==
      [CreateMultipartUpload(key, file.mimeType)] + PartRequests(key, uploadId, file.content)
      + (if AllStored(PartOutcomes(store, NumParts(file.Size())))
         then [CompleteMultipartUpload(key, uploadId, Values(PartOutcomes(store, NumParts(file.Size()))))]
         else [])
      + (if run.result.Failure? && HasUploadId(uploadId) then [AbortMultipartUpload(key, uploadId)] else [])
    ensures |run.requests| > NumParts(file.Size())
    ensures run.requests[0] == CreateMultipartUpload(key, file.mimeType)
    ensures forall k :: 0 <= k < NumParts(file.Size()) ==>
      run.requests[1 + k] == UploadPart(key, uploadId, k + 1, PartBody(file.content, k))
    ensures run.result.Success? <==> AllStored(PartOutcomes(store, NumParts(file.Size()))) && store.complete.Pass?
    ensures run.result.Success? ==> run.result.value == PublicUrl(cfg, key)
    ensures Completions(run.requests) ==
      if AllStored(PartOutcomes(store, NumParts(file.Size())))
      then [CompleteMultipartUpload(key, uploadId, Values(PartOutcomes(store, NumParts(file.Size()))))]
      else []
    ensures Aborts(run.requests) ==
      if run.result.Failure? && HasUploadId(uploadId) then [AbortMultipartUpload(key, uploadId)] else []
    ensures run.result.Failure? ==>
      if !AllStored(PartOutcomes(store, NumParts(file.Size()))) then
        run.result.error == PartOutcomes(store, NumParts(file.Size()))[FirstRejected(PartOutcomes(store, NumParts(file.Size())), store.settleRank).value].error
      else run.result.error == store.complete.error
  {
    var create := CreateMultipartUpload(key, file.mimeType);
    var n := NumParts(file.Size());
    var outs := PartOutcomes(store, n);
    var sent := [create] + PartRequests(key, uploadId, file.content);
    NoFinishIn(sent);
    CompletedPartsNumbered(store, n);
    var run := Settle(cfg, key, uploadId, outs, store, sent);
    PartsInTrace(create, key, uploadId, file.content, run.requests);
    assert run.requests[0] == run.requests[..|sent|][0];
    run
  }

  /** A trace that opens with the create request and the part requests holds
      part `k + 1`, with its byte range, right after the create request. */
  lemma PartsInTrace(create: Request, key: string, uploadId: Option<string>, content: seq<byte>, reqs: seq<Request>)
    requires |reqs| >= 1 + NumParts(|content|)
    requires reqs[..1 + NumParts(|content|)] == [create] + PartRequests(key, uploadId, content)
    ensures forall k :: 0 <= k < NumParts(|content|) ==>
      reqs[1 + k] == UploadPart(key, uploadId, k + 1, PartBody(content, k))
  {
    var n := NumParts(|content|);
    forall k | 0 <= k < n
      ensures reqs[1 + k] == UploadPart(key, uploadId, k + 1, PartBody(content, k))
    {
      assert reqs[1 + k] == reqs[..1 + n][1 + k];
    }
  }

  /** Step 4 of `uploadLargeFile` and its `catch` block, once the part
      requests `sent` are out: the first rejection aborts, otherwise the part
      list goes to completion. */
  function Settle(cfg: Config, key: string, uploadId: Option<string>, outs: seq<Result<CompletedPart>>,
                  store: Store, sent: seq<Request>): (run: Run)
    requires Aborts(sent) == [] && Completions(sent) == []
    ensures run.requests ==
      sent
      + (if AllStored(outs) then [CompleteMultipartUpload(key, uploadId, SortByPartNumber(Values(outs)))] else [])
      + (if run.result.Failure? && HasUploadId(uploadId) then [AbortMultipartUpload(key, uploadId)] else [])
    ensures |run.requests| >= |sent| && run.requests[..|sent|] == sent
    ensures run.result.Success? <==> AllStored(outs) && store.complete.Pass?
    ensures run.result.Success? ==> run.result.value == PublicUrl(cfg, key)
    ensures !AllStored(outs) ==> run.result == Failure(outs[FirstRejected(outs, store.settleRank).value].error)
    ensures run.result.Failure? && AllStored(outs) ==> run.result.error == store.complete.error
    ensures Completions(run.requests) ==
      if AllStored(outs) then [CompleteMultipartUpload(key, uploadId, SortByPartNumber(Values(outs)))] else []
    ensures Aborts(run.requests) ==
      if run.result.Failure? && HasUploadId(uploadId) then [AbortMultipartUpload(key, uploadId)] else []
  {
    match FirstRejected(outs, store.settleRank)
    case Some(k) =>
      AppendOne(sent, AbortMultipartUpload(key, uploadId));
      var run := Unwind(outs[k].error, key, uploadId, sent);
      assert run.requests[..|sent|] == sent;
      run
    case None =>
      Complete(cfg, key, uploadId, SortByPartNumber(Values(outs)), store.complete, sent)
  }

  /** Step 5 of `uploadLargeFile` and its `catch` block: the sorted part list
      goes to completion, and a failed completion aborts. */
  function Complete(cfg: Config, key: string, uploadId: Option<string>, parts: seq<CompletedPart>,
                    answer: Outcome, sent: seq<Request>): (run: Run)
    requires Aborts(sent) == [] && Completions(sent) == []
    // the completion, then the abort if the completion failed and the id is truthy
    ensures run.requests ==
      sent + [CompleteMultipartUpload(key, uploadId, parts)]
      + (if answer.Fail? && HasUploadId(uploadId) then [AbortMultipartUpload(key, uploadId)] else [])
    ensures |run.requests| >= |sent| && run.requests[..|sent|] == sent
    ensures run.result.Success? <==> answer.Pass?
    ensures run.result.Success? ==> run.result.value == PublicUrl(cfg, key)
    ensures run.result.Failure? ==> run.result.error == answer.error
    ensures Completions(run.requests) == [CompleteMultipartUpload(key, uploadId, parts)]
    ensures Aborts(run.requests) ==
      if answer.Fail? && HasUploadId(uploadId) then [AbortMultipartUpload(key, uploadId)] else []
  {
    var completing := sent + [CompleteMultipartUpload(key, uploadId, parts)];
    AppendOne(sent, CompleteMultipartUpload(key, uploadId, parts));
    assert completing[..|sent|] == sent;
    match answer
    case Pass => Run(Success(PublicUrl(cfg, key)), completing)
    case Fail(e) =>
      AppendOne(completing, AbortMultipartUpload(key, uploadId));
      var run := Unwind(e, key, uploadId, completing);
      assert run.requests[..|sent|] == sent;
      run
  }

  /** Whether the abort succeeds or throws makes no difference to the caller:
      the result and the requests are the same. */
  lemma AbortOutcomeInvisible(cfg: Config, file: File, fileName: string, store: Store, abort: Outcome)
    ensures UploadLargeFile(cfg, file, fileName, store.(abort := abort)) == UploadLargeFile(cfg, file, fileName, store)
  {
    var other := store.(abort := abort);
    var n := NumParts(file.Size());
    assert PartOutcomes(other, n) == PartOutcomes(store, n);
  }

  /** A part failure on a three-part upload surfaces that part's error, and the
      session is aborted once with its own id, even when the abort throws. */
  lemma SecondOfThreePartsFails(cfg: Config, name: string, content: seq<byte>, id: string, e: Error, abortError: Error)
    requires |content| == 2 * ChunkSize + 1024
    requires id != ""
    ensures
      var store := Store(Pass, Created(Some(id)),
                         k => if k == 1 then PartFailed(e) else PartStored(Some("\"tag\"")),
                         k => k, Pass, Fail(abortError));
      var run := UploadLargeFile(cfg, File(name, "video/mp4", content), name, store);
      && run.result == Failure(e)
      && Aborts(run.requests) == [AbortMultipartUpload(ObjectKey(name), Some(id))]
      && Completions(run.requests) == []
  {
    var store := Store(Pass, Created(Some(id)),
                       k => if k == 1 then PartFailed(e) else PartStored(Some("\"tag\"")),
                       k => k, Pass, Fail(abortError));
    var outs := PartOutcomes(store, NumParts(|content|));
    assert NumParts(|content|) == 3;
    assert outs[1] == Failure(e);
    ETag.NormalizeRejects(Some("\"tag\""));
    assert outs[0].Success? && outs[2].Success?;
    assert FirstRejected(outs, store.settleRank) == Some(1);
  }
}

=== FILE: tag_list.dfy ===
/** The tag lists the annotation forms edit: a candidate is the trimmed text of
    the tag input, and tags are removed by value. */
module TagList {
  import Text

  /** The `key` of the keyboard event that adds a tag. */
  const Enter: string := "Enter"

  predicate NoDuplicates(tags: seq<string>) {
    forall i, j :: 0 <= i < j < |tags| ==> tags[i] != tags[j]
  }

  /** The tag an Enter key press would add: `newTag.trim()`. */
  function Candidate(input: string): (tag: string)
    ensures Text.TrimmedFrom(input, tag)
  {
    Text.Trim(input)
  }

  /** `tags.includes(tag) ? tags : [...tags, tag]`: append unless present. */
  function AddUnique(tags: seq<string>, tag: string): (r: seq<string>)
    ensures |r| >= |tags| && r[..|tags|] == tags
    ensures tag in r
    ensures |r| == if tag in tags then |tags| else |tags| + 1
    ensures forall x :: x in r <==> x in tags || x == tag
  {
    if tag in tags then tags else tags + [tag]
  }

  lemma AddUniqueKeepsNoDuplicates(tags: seq<string>, tag: string)
    requires NoDuplicates(tags)
    ensures NoDuplicates(AddUnique(tags, tag))
  {
  }

  /** `tags.filter(t => t !== tag)`: every occurrence of `tag` goes, the other
      tags stay, each as many times as before. */
  function Without(tags: seq<string>, tag: string): (r: seq<string>)
    ensures multiset(r) == multiset(tags)[tag := 0]
  {
    if |tags| == 0 then []
    else
      var init := tags[..|tags| - 1];
      var last := tags[|tags| - 1];
      assert tags == init + [last];
      Without(init, tag) + (if last == tag then [] else [last])
  }

  /** The filter keeps the order of the tags it keeps. */
  lemma {:induction false} WithoutDistributes(a: seq<string>, b: seq<string>, tag: string)
    ensures Without(a + b, tag) == Without(a, tag) + Without(b, tag)
    decreases |b|
  {
    if |b| == 0 {
      assert a + b == a;
    } else {
      var b' := b[..|b| - 1];
      assert (a + b)[..|a + b| - 1] == a + b';
      WithoutDistributes(a, b', tag);
    }
  }

  /** Removing a tag that is not there leaves the list as it was. */
  lemma {:induction false} WithoutAbsent(tags: seq<string>, tag: string)
    requires tag !in tags
    ensures Without(tags, tag) == tags
  {
    if |tags| > 0 {
      var init := tags[..|tags| - 1];
      var last := tags[|tags| - 1];
      WithoutAbsent(init, tag);
      assert tags == init + [last];
      assert last != tag;
      assert Without(tags, tag) == Without(init, tag) + [last];
    }
  }

  lemma {:induction false} WithoutKeepsNoDuplicates(tags: seq<string>, tag: string)
    requires NoDuplicates(tags)
    ensures NoDuplicates(Without(tags, tag))
  {
    if |tags| > 0 {
      var init := tags[..|tags| - 1];
      var last := tags[|tags| - 1];
      WithoutKeepsNoDuplicates(init, tag);
      if last != tag {
        assert last !in init;
        assert multiset(Without(init, tag))[last] == 0;
        assert last !in Without(init, tag);
      }
    }
  }

  /** Adding a tag that is not yet in the list and then removing it gives the
      original list back. */
  lemma AddThenRemoveRestores(tags: seq<string>, tag: string)
    requires tag !in tags
    ensures Without(AddUnique(tags, tag), tag) == tags
  {
    WithoutDistributes(tags, [tag], tag);
    WithoutAbsent(tags, tag);
    assert Without([tag], tag) == [] by {
      assert [tag][..0] == [];
    }
  }
}

=== FILE: text.dfy ===
/** The few string operations of JavaScript the core relies on:
    `split(sep).pop()`, `startsWith`, `trim()` and decimal rendering of a
    number inside a template literal. */
module Text {

  /** `s.split(sep).pop()`: the text after the last `sep`, or all of `s` when
      `sep` does not occur. The result is the longest suffix of `s` free of
      `sep`. */
  function AfterLast(s: string, sep: char): (r: string)
    ensures |r| <= |s| && r == s[|s| - |r|..]
    ensures sep !in r
    ensures |r| < |s| ==> s[|s| - |r| - 1] == sep
    decreases |s|
  {
    if |s| == 0 then []
    else if s[|s| - 1] == sep then []
    else
      var init := s[..|s| - 1];
      var r := AfterLast(init, sep);
      assert s[|s| - |r| - 1..] == init[|init| - |r|..] + [s[|s| - 1]];
      assert |r| < |init| ==> s[|s| - |r| - 2] == init[|init| - |r| - 1];
      r + [s[|s| - 1]]
  }

  /** Whenever `s` splits as a prefix that is empty or ends in `sep`, followed
      by a `sep`-free tail, `AfterLast` yields exactly that tail. */
  lemma {:induction false} AfterLastIsTail(p: string, t: string, sep: char)
    requires p == [] || p[|p| - 1] == sep
    requires sep !in t
    ensures AfterLast(p + t, sep) == t
    decreases |t|
  {
    if t == [] {
      assert p + t == p;
    } else {
      var t' := t[..|t| - 1];
      assert p + t == (p + t') + [t[|t| - 1]];
      assert (p + t)[..|p + t| - 1] == p + t';
      AfterLastIsTail(p, t', sep);
      assert t == t' + [t[|t| - 1]];
    }
  }

  predicate StartsWith(s: string, prefix: string) {
    |prefix| <= |s| && s[..|prefix|] == prefix
  }

  /** The code points `String.prototype.trim` removes: ECMAScript WhiteSpace
      (tab, vertical tab, form feed, space, no-break space, zero width no-break
      space and the Unicode space separators) and LineTerminator (line feed,
      carriage return, line and paragraph separators). */
  const JsSpaces: string :=
    "\t\n\U{000B}\U{000C}\r \U{00A0}\U{1680}"
    + "\U{2000}\U{2001}\U{2002}\U{2003}\U{2004}\U{2005}\U{2006}\U{2007}\U{2008}\U{2009}\U{200A}"
    + "\U{2028}\U{2029}\U{202F}\U{205F}\U{3000}\U{FEFF}"

  predicate IsJsSpace(c: char) {
    Occurs(c, JsSpaces)
  }

  /** `c in cs`, spelled out one character at a time. */
  predicate Occurs(c: char, cs: string) {
    |cs| > 0 && (cs[0] == c || Occurs(c, cs[1..]))
  }

  predicate AllSpace(s: string) {
    forall i :: 0 <= i < |s| ==> IsJsSpace(s[i])
  }

  /** The first index at or after `k` that does not hold white space, or the
      length when there is none. */
  function SkipSpace(s: string, k: nat): (n: nat)
    requires k <= |s|
    ensures k <= n <= |s|
    ensures forall i :: k <= i < n ==> IsJsSpace(s[i])
    ensures n == |s| || !IsJsSpace(s[n])
    decreases |s| - k
  {
    if k < |s| && IsJsSpace(s[k]) then SkipSpace(s, k + 1) else k
  }

  /** Walking back from `hi` towards `lo`: the end of the last character that
      is not white space, or `lo` when there is none. */
  function BackOverSpace(s: string, lo: nat, hi: nat): (n: nat)
    requires lo <= hi <= |s|
    ensures lo <= n <= hi
    ensures forall i :: n <= i < hi ==> IsJsSpace(s[i])
    ensures n == lo || !IsJsSpace(s[n - 1])
    decreases hi
  {
    if lo < hi && IsJsSpace(s[hi - 1]) then BackOverSpace(s, lo, hi - 1) else hi
  }

  /** Where the trimmed text starts in `s`. */
  function TrimBegin(s: string): (b: nat)
    ensures b <= |s|
  {
    SkipSpace(s, 0)
  }

  /** Where the trimmed text ends in `s`. */
  function TrimStop(s: string): (e: nat)
    ensures TrimBegin(s) <= e <= |s|
  {
    BackOverSpace(s, TrimBegin(s), |s|)
  }

  /** `r` is what `trim()` makes of `s`: a stretch of `s` with only white
      space before and after it, which itself neither starts nor ends with
      white space. */
  predicate TrimmedFrom(s: string, r: string) {
    && (r == [] || (!IsJsSpace(r[0]) && !IsJsSpace(r[|r| - 1])))
    && exists b :: 0 <= b <= |s| - |r| && r == s[b..b + |r|] && AllSpace(s[..b]) && AllSpace(s[b + |r|..])
  }

  /** `s.trim()`: `s` without its leading and trailing white space. */
  function Trim(s: string): (r: string)
    ensures |r| <= |s|
    ensures TrimmedFrom(s, r)
  {
    var b, e := TrimBegin(s), TrimStop(s);
    assert AllSpace(s[..b]);
    assert AllSpace(s[e..]);
    s[b..e]
  }

  /** Only white space is cut off: every character outside the trimmed infix
      is white space, and the infix neither starts nor ends with it. */
  lemma TrimCutsOnlySpace(s: string)
    ensures forall i :: 0 <= i < TrimBegin(s) ==> IsJsSpace(s[i])
    ensures forall i :: TrimStop(s) <= i < |s| ==> IsJsSpace(s[i])
    ensures TrimBegin(s) < TrimStop(s) ==> !IsJsSpace(s[TrimBegin(s)]) && !IsJsSpace(s[TrimStop(s) - 1])
  {
  }

  /** A text whose `trim()` is falsy: empty or nothing but white space. */
  predicate Blank(s: string) {
    Trim(s) == []
  }

  lemma BlankIffAllSpace(s: string)
    ensures Blank(s) <==> AllSpace(s)
  {
    var b, e := TrimBegin(s), TrimStop(s);
    if AllSpace(s) {
      assert b == |s|;
    }
  }

  /** Trimming twice is trimming once. */
  lemma TrimIdempotent(s: string)
    ensures Trim(Trim(s)) == Trim(s)
  {
    var r := Trim(s);
    assert TrimBegin(r) == 0;
    assert TrimStop(r) == |r|;
  }

  function DigitChar(d: nat): char
    requires d < 10
  {
    "0123456789"[d]
  }

  function DigitValue(c: char): nat {
    if '0' <= c <= '9' then (c as int - '0' as int) as nat else 0
  }

  /** `${n}` for a non-negative integer: its decimal digits, most significant
      first, without leading zeros. */
  function Decimal(n: nat): (r: string)
    ensures |r| > 0
    ensures forall k :: 0 <= k < |r| ==> '0' <= r[k] <= '9'
    // no leading zero: only the number 0 starts with `0`, and it is the single digit
    ensures r[0] == '0' <==> n == 0
    ensures |r| > 1 ==> r[0] != '0'
  {
    if n < 10 then [DigitChar(n)] else Decimal(n / 10) + [DigitChar(n % 10)]
  }

  /** Reads a string of decimal digits back as a number. */
  function ParseDecimal(s: string): nat {
    if s == [] then 0 else ParseDecimal(s[..|s| - 1]) * 10 + DigitValue(s[|s| - 1])
  }

  lemma {:induction false} ParseDecimalOfDecimal(n: nat)
    ensures ParseDecimal(Decimal(n)) == n
  {
    if n >= 10 {
      var s := Decimal(n / 10) + [DigitChar(n % 10)];
      assert s[..|s| - 1] == Decimal(n / 10);
      ParseDecimalOfDecimal(n / 10);
    }
  }

  /** Distinct numbers render as distinct texts. */
  lemma DecimalInjective(a: nat, b: nat)
    requires Decimal(a) == Decimal(b)
    ensures a == b
  {
    ParseDecimalOfDecimal(a);
    ParseDecimalOfDecimal(b);
  }
}

=== FILE: video_annotation.dfy ===
/** components/VideoAnnotation.tsx: tag entry without de-duplication, picking
    a pending video, and the save that uploads the selected file, inserts its
    `Videos` and `Annotations` rows, and moves on to the next pending video. */
module VideoAnnotation {
  import opened Common
  import Text
  import opened TagList
  import opened VideoContext
  import S3Upload

  /** The shared context together with the component's local state. */
  datatype Annotator = Annotator(
    session: Session,
    title: string,
    description: string,
    tags: seq<string>,
    newTag: string,
    isUploading: bool,
    progress: nat)

  /** A database insert `handleSave` issues. */
  datatype Insert =
    | InsertVideo(fileName: string, awsPath: string)
    | InsertAnnotation(videoId: string, title: string, description: string, tags: seq<string>)

  /** One save: the state afterwards, the store requests of the transfer, the
      inserts issued, and the error the `catch` block logged, if any. */
  datatype SaveRun = SaveRun(after: Annotator, transfer: seq<S3Upload.Request>, inserts: seq<Insert>, caught: Option<Error>)

  /** `handleAddTag`: Enter with a non-blank input appends the trimmed tag,
      whether or not it is already in the list, and clears the input. */
  function HandleAddTag(key: string, a: Annotator): (r: Annotator)
    ensures r == a.(tags := r.tags, newTag := r.newTag)
    ensures key != Enter || Text.Blank(a.newTag) ==> r == a
    ensures key == Enter && !Text.Blank(a.newTag) ==>
      && r.newTag == []
      && |r.tags| == |a.tags| + 1
      && r.tags[..|a.tags|] == a.tags
      && r.tags[|a.tags|] == Candidate(a.newTag)
  {
    if key == Enter && !Text.Blank(a.newTag) then
      a.(tags := a.tags + [Text.Trim(a.newTag)], newTag := [])
    else a
  }

  /** Unlike the other two forms, entering a tag that is already listed adds
      a second copy. */
  lemma AddTagKeepsDuplicates(a: Annotator)
    requires !Text.Blank(a.newTag) && Candidate(a.newTag) in a.tags
    ensures multiset(HandleAddTag(Enter, a).tags)[Candidate(a.newTag)] == multiset(a.tags)[Candidate(a.newTag)] + 1
    ensures !NoDuplicates(HandleAddTag(Enter, a).tags)
  {
    var r := HandleAddTag(Enter, a).tags;
    var i :| 0 <= i < |a.tags| && a.tags[i] == Candidate(a.newTag);
    assert r[i] == r[|a.tags|];
  }

  /** `handleSelectVideo(index)`, for an index of the rendered grid. */
  function HandleSelectVideo(index: nat, a: Annotator): (r: Annotator)
    requires index < |a.session.pending|
    ensures r == a.(session := r.session)
    ensures r.session.pending == a.session.pending
    ensures r.session.current == index
    ensures r.session.selected == Some(a.session.pending[index].file)
    ensures r.session.videoId == a.session.pending[index].id
    ensures Consistent(r.session)
    ensures IdsUnassigned(a.session) ==> IdsUnassigned(r.session)
  {
    var entry := a.session.pending[index];
    a.(session := a.session.(current := index, selected := Some(entry.file), videoId := entry.id))
  }

  /** `selectedVideo.name.split(".").pop()`: the dot-free tail of the name,
      which follows a dot unless it is the whole name. */
  function Extension(name: string): (ext: string)
    ensures '.' !in ext
    ensures |ext| <= |name| && name[|name| - |ext|..] == ext
    ensures |ext| < |name| ==> name[|name| - |ext| - 1] == '.'
  {
    Text.AfterLast(name, '.')
  }

  /** A name with no dot is its own extension; otherwise the extension is the
      text after the last dot. */
  lemma ExtensionCases(base: string, ext: string)
    requires '.' !in ext
    ensures '.' !in base ==> Extension(base) == base
    ensures Extension(base + "." + ext) == ext
  {
    if '.' !in base {
      Text.AfterLastIsTail([], base, '.');
      assert [] + base == base;
    }
    Text.AfterLastIsTail(base + ".", ext, '.');
  }

  /** The unique upload name: `stamp` stands for the
      `${Date.now()}-${random}` prefix. */
  function UploadName(stamp: string, name: string): (upload: string)
    ensures Text.StartsWith(upload, stamp) && |upload| == |stamp| + 1 + |Extension(name)|
    ensures Extension(upload) == Extension(name)
    ensures |upload| > |Extension(name)| && upload[|upload| - |Extension(name)| - 1] == '.'
  {
    var ext := Extension(name);
    Text.AfterLastIsTail(stamp + ".", ext, '.');
    stamp + "." + ext
  }

  /** Step 5 to 7 of `handleSave`: drop the current entry, reset the form, and
      select the entry that took its place, or nothing. */
  function Advance(a: Annotator): (r: Annotator)
    ensures r.session.pending == RemoveAt(a.session.pending, a.session.current)
    ensures r.title == [] && r.description == [] && r.tags == []
    ensures r.newTag == a.newTag && r.isUploading == a.isUploading && r.progress == a.progress
    ensures |r.session.pending| > 0 ==>
      && r.session.current == Min(a.session.current, |r.session.pending| - 1)
      && r.session.selected == Some(r.session.pending[r.session.current].file)
      && r.session.videoId == r.session.pending[r.session.current].id
    ensures |r.session.pending| == 0 ==>
      r.session.selected.None? && r.session.videoId.None? && r.session.current == 0
  {
    var pending := RemoveAt(a.session.pending, a.session.current);
    var session :=
      if |pending| > 0 then
        var next := NextIndex(a.session.current, |pending|);
        Session(Some(pending[next].file), pending[next].id, pending, next)
      else Session(None, None, pending, 0);
    a.(session := session, title := [], description := [], tags := [])
  }

  /** `handleSave`, given the store's behaviour for the transfer and what the
      two inserts answer. */
  function HandleSave(a: Annotator, stamp: string, cfg: S3Upload.Config, store: S3Upload.Store,
                      videoInsert: Result<string>, annotationInsert: Outcome): (r: SaveRun)
    // no selected video: nothing happens at all
    ensures a.session.selected.None? ==> r == SaveRun(a, [], [], None)
    // otherwise the file is uploaded under its unique name, and the spinner stops either way
    ensures a.session.selected.Some? ==>
      && r.transfer == S3Upload.UploadToS3(cfg, a.session.selected.value, UploadName(stamp, a.session.selected.value.name), store).requests
      && |r.transfer| >= 1
      && r.transfer[0].key == S3Upload.ObjectKey(UploadName(stamp, a.session.selected.value.name))
      && !r.after.isUploading && r.after.progress == 0
    // a failed upload inserts nothing; a failed video insert is followed by no annotation insert
    ensures a.session.selected.Some? ==>
      var upload := S3Upload.UploadToS3(cfg, a.session.selected.value, UploadName(stamp, a.session.selected.value.name), store);
      && (upload.result.Failure? ==> r.inserts == [])
      && (upload.result.Success? && videoInsert.Failure? ==>
            r.inserts == [InsertVideo(a.session.selected.value.name, upload.result.value)])
      && (upload.result.Success? && videoInsert.Success? ==>
            r.inserts == [InsertVideo(a.session.selected.value.name, upload.result.value),
                          InsertAnnotation(videoInsert.value, a.title, a.description, a.tags)])
    // the save completes exactly when the upload and both inserts succeed
    ensures a.session.selected.Some? ==>
      (r.caught.None? <==>
        S3Upload.UploadToS3(cfg, a.session.selected.value, UploadName(stamp, a.session.selected.value.name), store).result.Success?
        && videoInsert.Success? && annotationInsert.Pass?)
    // any error leaves list, index, selection and form as they were
    ensures r.caught.Some? ==> r.after == a.(isUploading := false, progress := 0)
    // on success the rows carry the uploaded URL, the video's id and the form
    ensures a.session.selected.Some? && r.caught.None? ==>
      r.inserts == [
        InsertVideo(a.session.selected.value.name,
                    S3Upload.PublicUrl(cfg, S3Upload.ObjectKey(UploadName(stamp, a.session.selected.value.name)))),
        InsertAnnotation(videoInsert.value, a.title, a.description, a.tags)]
    // and the current entry leaves the pending list; the form is reset
    ensures a.session.selected.Some? && r.caught.None? ==>
      r.after == Advance(a).(isUploading := false, progress := 0)
  {
    match a.session.selected
    case None => SaveRun(a, [], [], None)
    case Some(file) =>
      var run := S3Upload.UploadToS3(cfg, file, UploadName(stamp, file.name), store);
      Record(a, file.name, run, videoInsert, annotationInsert)
  }

  /** Steps 3 to 7 of `handleSave` and its `catch` and `finally` blocks, once
      the transfer of the file called `name` has settled as `run`. */
  function Record(a: Annotator, name: string, run: S3Upload.Run, videoInsert: Result<string>, annotationInsert: Outcome): (r: SaveRun)
    ensures r.transfer == run.requests
    ensures !r.after.isUploading && r.after.progress == 0
    ensures r.caught.None? <==> run.result.Success? && videoInsert.Success? && annotationInsert.Pass?
    ensures r.caught.Some? ==> r.after == a.(isUploading := false, progress := 0)
    // the video row waits for the upload, and the annotation row for the video row
    ensures run.result.Failure? ==> r.inserts == [] && r.caught == Some(run.result.error)
    ensures run.result.Success? && videoInsert.Failure? ==>
      r.inserts == [InsertVideo(name, run.result.value)] && r.caught == Some(videoInsert.error)
    ensures run.result.Success? && videoInsert.Success? ==>
      r.inserts == [InsertVideo(name, run.result.value), InsertAnnotation(videoInsert.value, a.title, a.description, a.tags)]
    ensures r.caught.None? ==>
      && r.inserts == [InsertVideo(name, run.result.value), InsertAnnotation(videoInsert.value, a.title, a.description, a.tags)]
      && r.after == Advance(a).(isUploading := false, progress := 0)
  {
    var idle := a.(isUploading := false, progress := 0);
    match run.result
    case Failure(e) => SaveRun(idle, run.requests, [], Some(e))
    case Success(url) =>
      var videoRow := InsertVideo(name, url);
      match videoInsert
      case Failure(e) => SaveRun(idle, run.requests, [videoRow], Some(e))
      case Success(videoId) =>
        var annotationRow := InsertAnnotation(videoId, a.title, a.description, a.tags);
        match annotationInsert
        case Fail(e) => SaveRun(idle, run.requests, [videoRow, annotationRow], Some(e))
        case Pass => SaveRun(Advance(idle), run.requests, [videoRow, annotationRow], None)
  }

  /** Moving on keeps the selection consistent with the shortened list, and
      brings in no id. */
  lemma AdvanceKeepsInvariants(a: Annotator)
    ensures Consistent(Advance(a).session)
    ensures IdsUnassigned(a.session) ==> IdsUnassigned(Advance(a).session)
  {
    var s := Advance(a).session;
    if |s.pending| > 0 && IdsUnassigned(a.session) {
      assert s.pending[s.current] in a.session.pending;
    }
  }

  /** Saving from a consistent state leaves it consistent: after a successful
      save the index is in bounds of the shorter list and the selection is the
      file at the index, or nothing when the list ran out. No id appears. */
  lemma SaveKeepsInvariants(a: Annotator, stamp: string, cfg: S3Upload.Config, store: S3Upload.Store,
                            videoInsert: Result<string>, annotationInsert: Outcome)
    requires Consistent(a.session)
    ensures Consistent(HandleSave(a, stamp, cfg, store, videoInsert, annotationInsert).after.session)
    ensures IdsUnassigned(a.session) ==>
      IdsUnassigned(HandleSave(a, stamp, cfg, store, videoInsert, annotationInsert).after.session)
  {
    var r := HandleSave(a, stamp, cfg, store, videoInsert, annotationInsert);
    if a.session.selected.Some? && r.caught.None? {
      AdvanceKeepsInvariants(a);
      assert r.after.session == Advance(a).session;
    } else {
      assert r.after.session == a.session;
    }
  }
}

=== FILE: video_context.dfy ===
/** The shared selection state of contexts/VideoContext.ts: the selected file,
    its database id, the pending list and the index of the current entry. */
module VideoContext {
  import opened Common

  /** `VideoFile`: a pending file and the id of its database record. */
  datatype VideoFile = VideoFile(file: File, id: Option<string>)

  /** The context value, minus its setters. */
  datatype Session = Session(selected: Option<File>, videoId: Option<string>, pending: seq<VideoFile>, current: nat)

  /** The state the library page starts with. */
  const Initial: Session := Session(None, None, [], 0)

  /** The selection agrees with the pending list: with nothing pending nothing
      is selected and the index is 0; otherwise the index is in bounds and the
      selected file is the file at that index. */
  predicate Consistent(s: Session) {
    if |s.pending| == 0 then s.selected.None? && s.current == 0
    else s.current < |s.pending| && s.selected == Some(s.pending[s.current].file)
  }

  /** No pending entry has a database id, and neither does the selection:
      every writer of the context sets ids to `null` or copies them from a
      pending entry. */
  predicate IdsUnassigned(s: Session) {
    s.videoId.None? && forall v :: v in s.pending ==> v.id.None?
  }

  lemma InitialIsConsistent()
    ensures Consistent(Initial) && IdsUnassigned(Initial)
  {
  }

  /** `list.filter((_, i) => i !== index)`: the list without the entry at
      `index`, the others in order; an index past the end removes nothing. */
  function RemoveAt<T>(list: seq<T>, index: nat): (r: seq<T>)
    ensures index < |list| ==> |r| == |list| - 1
    ensures index >= |list| ==> r == list
    ensures forall j :: 0 <= j < index && j < |r| ==> r[j] == list[j]
    ensures forall j :: index <= j < |r| ==> r[j] == list[j + 1]
    ensures forall x :: x in r ==> x in list
  {
    if |list| == 0 then []
    else
      var last := |list| - 1;
      RemoveAt(list[..last], index) + (if last != index then [list[last]] else [])
  }

  /** `Math.min(current, remaining - 1)`: the entry that takes the place of a
      removed current entry. */
  function NextIndex(current: nat, remaining: nat): (i: nat)
    requires remaining > 0
    ensures i < remaining
    ensures i <= current
    ensures i == current || i == remaining - 1
  {
    Min(current, remaining - 1)
  }
}

=== FILE: video_player.dfy ===
/** The form state of components/VideoPlayer.tsx: tag editing that keeps the
    tag list free of duplicates, and a save that inserts one `videos` row and
    resets the form when the insert succeeds. */
module VideoPlayer {
  import opened Common
  import Text
  import opened TagList
  import AnnotationForm

  /** The component's local state. */
  datatype Player = Player(title: string, description: string, tags: seq<string>, newTag: string, selected: Option<File>)

  /** The row `handleSave` inserts; `aws_path` is always empty. */
  datatype Row = Row(title: string, description: string, tags: seq<string>, awsPath: string)

  /** The state after `handleSave` and the row it tried to insert, if any. */
  datatype SaveRun = SaveRun(after: Player, inserted: Option<Row>)

  /** `handleAddTag`. */
  function HandleAddTag(key: string, p: Player): (r: Player)
    ensures r.title == p.title && r.description == p.description && r.selected == p.selected
    ensures key != Enter || Text.Blank(p.newTag) ==> r == p
    ensures key == Enter && !Text.Blank(p.newTag) ==>
      && r.newTag == []
      && Candidate(p.newTag) in r.tags
      && |r.tags| >= |p.tags| && r.tags[..|p.tags|] == p.tags
    ensures |r.tags| == |p.tags| + 1 <==> key == Enter && !Text.Blank(p.newTag) && Candidate(p.newTag) !in p.tags
    ensures |r.tags| <= |p.tags| + 1
  {
    if key == Enter && Text.Trim(p.newTag) != [] then
      var tags := if Text.Trim(p.newTag) !in p.tags then p.tags + [Text.Trim(p.newTag)] else p.tags;
      p.(tags := tags, newTag := [])
    else p
  }

  /** Adding a tag here does exactly what the annotation form does to its tag
      list and input. */
  lemma AddTagAgreesWithAnnotationForm(key: string, p: Player)
    ensures var f := AnnotationForm.HandleAddTag(key, AnnotationForm.TagField(p.tags, p.newTag));
            HandleAddTag(key, p) == p.(tags := f.tags, newTag := f.input)
  {
  }

  /** `handleRemoveTag`. */
  function HandleRemoveTag(tag: string, p: Player): (r: Player)
    ensures r == p.(tags := r.tags)
    ensures tag !in r.tags
    ensures forall x :: x != tag ==> multiset(r.tags)[x] == multiset(p.tags)[x]
  {
    var tags := Without(p.tags, tag);
    assert multiset(tags)[tag] == 0;
    p.(tags := tags)
  }

  lemma HandlersKeepNoDuplicates(key: string, tag: string, p: Player)
    requires NoDuplicates(p.tags)
    ensures NoDuplicates(HandleAddTag(key, p).tags)
    ensures NoDuplicates(HandleRemoveTag(tag, p).tags)
  {
    AddUniqueKeepsNoDuplicates(p.tags, Candidate(p.newTag));
    WithoutKeepsNoDuplicates(p.tags, tag);
  }

  /** `handleSave`, given what the insert answers. */
  function HandleSave(p: Player, insert: Outcome): (r: SaveRun)
    // no selected file: nothing is inserted and nothing changes
    ensures p.selected.None? ==> r == SaveRun(p, None)
    // otherwise the form's fields are inserted with an empty path
    ensures p.selected.Some? ==> r.inserted == Some(Row(p.title, p.description, p.tags, []))
    // a failed insert leaves the form as it was
    ensures p.selected.Some? && insert.Fail? ==> r.after == p
    // a successful one clears the fields and the selection, but not the tag input
    ensures p.selected.Some? && insert.Pass? ==>
      r.after.title == [] && r.after.description == [] && r.after.tags == [] && r.after.selected.None?
      && r.after.newTag == p.newTag
  {
    if p.selected.None? then SaveRun(p, None)
    else
      var row := Row(p.title, p.description, p.tags, []);
      match insert
      case Fail(_) => SaveRun(p, Some(row))
      case Pass => SaveRun(Player([], [], [], p.newTag, None), Some(row))
  }

  /** After a successful save there is no file left, so saving again inserts
      nothing and changes nothing; and no save brings a duplicate tag. */
  lemma SaveThenSaveDoesNothing(p: Player, first: Outcome, second: Outcome)
    ensures first.Pass? ==>
      var after := HandleSave(p, first).after;
      HandleSave(after, second) == SaveRun(after, None)
    ensures NoDuplicates(p.tags) ==> NoDuplicates(HandleSave(p, first).after.tags)
  {
  }

  /** The component's first render: empty fields and no file. */
  const Initial: Player := Player([], [], [], [], None)

  /** What the user can do on the page: type into the three inputs, press a
      key in the tag input, remove a tag, or press save (with what the insert
      would answer). Nothing on the page selects a file. */
  datatype Event =
    | TypeTitle(text: string)
    | TypeDescription(text: string)
    | TypeTag(text: string)
    | KeyDown(key: string)
    | RemoveTag(tag: string)
    | Save(insert: Outcome)

  /** The state after `events`, and the rows inserted on the way. */
  function Replay(events: seq<Event>, p: Player): (r: (Player, seq<Row>))
    ensures r.0.selected.Some? ==> p.selected.Some?
    decreases |events|
  {
    if |events| == 0 then (p, [])
    else
      var (q, rows) := Replay(events[..|events| - 1], p);
      match events[|events| - 1]
      case TypeTitle(t) => (q.(title := t), rows)
      case TypeDescription(t) => (q.(description := t), rows)
      case TypeTag(t) => (q.(newTag := t), rows)
      case KeyDown(k) => (HandleAddTag(k, q), rows)
      case RemoveTag(t) => (HandleRemoveTag(t, q), rows)
      case Save(answer) =>
        var run := HandleSave(q, answer);
        (run.after, rows + (if run.inserted.Some? then [run.inserted.value] else []))
  }

  /** The only file setter resets the selection to `null`, so from the first
      render no sequence of edits and saves ever has a file selected, and the
      save button never inserts a row. */
  lemma {:induction false} SaveNeverInserts(events: seq<Event>)
    ensures Replay(events, Initial).0.selected.None?
    ensures Replay(events, Initial).1 == []
    decreases |events|
  {
    if |events| > 0 {
      SaveNeverInserts(events[..|events| - 1]);
    }
  }
}

=== FILE: video_uploader.dfy ===
/** File intake of components/VideoUploader.tsx: dropped or browsed files are
    filtered to videos, which replace the pending list; the first becomes the
    selection. */
module VideoUploader {
  import opened Common
  import Text
  import opened VideoContext

  const VideoMimePrefix: string := "video/"

  /** `file.type.startsWith("video/")`. */
  predicate IsVideo(f: File) {
    Text.StartsWith(f.mimeType, VideoMimePrefix)
  }

  /** `files.filter(file => file.type.startsWith("video/"))`. */
  function VideoFiles(files: seq<File>): (r: seq<File>)
    ensures forall f :: f in r <==> f in files && IsVideo(f)
    ensures |r| <= |files|
  {
    if |files| == 0 then []
    else
      var init := files[..|files| - 1];
      var last := files[|files| - 1];
      assert files == init + [last];
      VideoFiles(init) + (if IsVideo(last) then [last] else [])
  }

  /** The filter keeps the videos in the order they were given. */
  lemma {:induction false} VideoFilesDistributes(a: seq<File>, b: seq<File>)
    ensures VideoFiles(a + b) == VideoFiles(a) + VideoFiles(b)
    decreases |b|
  {
    if |b| == 0 {
      assert a + b == a;
    } else {
      var b' := b[..|b| - 1];
      assert (a + b)[..|a + b| - 1] == a + b';
      VideoFilesDistributes(a, b');
    }
  }

  /** What taking in `videos` does to the session: with no video nothing
      changes; otherwise the videos replace the pending list, without ids, in
      order, and the first becomes current. */
  predicate TakesIn(videos: seq<File>, s: Session, r: Session) {
    if |videos| == 0 then r == s
    else
      && |r.pending| == |videos|
      && (forall i :: 0 <= i < |r.pending| ==> r.pending[i] == VideoFile(videos[i], None))
      && r.selected == Some(videos[0])
      && r.current == 0
      && r.videoId == s.videoId
  }

  /** The common body of both handlers. */
  function Intake(files: seq<File>, s: Session): (r: Session)
    ensures TakesIn(VideoFiles(files), s, r)
  {
    var videos := VideoFiles(files);
    if |videos| > 0 then
      Session(Some(videos[0]), s.videoId, seq(|videos|, i requires 0 <= i < |videos| => VideoFile(videos[i], None)), 0)
    else s
  }

  /** `handleDrop` with the dropped files. */
  function HandleDrop(dropped: seq<File>, s: Session): (r: Session)
    ensures TakesIn(VideoFiles(dropped), s, r)
  {
    Intake(dropped, s)
  }

  /** `handleFileSelect`: `e.target.files || []`. */
  function HandleFileSelect(chosen: Option<seq<File>>, s: Session): (r: Session)
    ensures chosen.None? ==> r == s
    ensures chosen.Some? ==> TakesIn(VideoFiles(chosen.value), s, r)
  {
    Intake(chosen.GetOr([]), s)
  }

  /** Dropping and browsing are the same transformation, and browsing with no
      file list changes nothing. */
  lemma DropAndBrowseAgree(files: seq<File>, s: Session)
    ensures HandleFileSelect(Some(files), s) == HandleDrop(files, s)
    ensures HandleFileSelect(None, s) == s
  {
  }

  /** Intake keeps the selection consistent with the pending list and brings
      in no ids. */
  lemma IntakeKeepsInvariants(files: seq<File>, s: Session)
    requires Consistent(s)
    ensures Consistent(Intake(files, s))
    ensures IdsUnassigned(s) ==> IdsUnassigned(Intake(files, s))
  {
  }
}
